=== FILE: README.md ===
# Hug Mind Self — a verified model of its core

Hug Mind Self is a Thai-language wellbeing web application. A signed-in user
keeps a list of daily habits (called *cohesions*) and a to-do list. They mark
days done and see their current streak, longest streak and completion rate on
a dashboard and a statistics page. They can also talk to a canned "therapist"
chat assistant. An administrator, recognised by one fixed email and password
pair, sees a searchable user list and a paged activity log. Authentication is
mocked: any non-empty email and password sign in, and the user record lives
in the browser's key-value storage.

This project models the logic behind those screens in Dafny and proves what
each operation promises:

- `CohesionContext` holds the habit store and the streak engine.
  - `markDay` inserts or replaces one date's entry in a habit's log.
  - Adding, deleting and marking are proved to keep each log free of repeated
    dates. An update keeps that too unless its patch brings a log that
    already repeats a date; the source does not check a patched log.
  - The `getCurrentStreak` and `getLongestStreak` loops are methods proved
    equal to specification functions.
  - On a log without repeated dates, those functions are proved to compute
    the length of the block of consecutive completed days ending today or
    yesterday, and the length of the longest such block. On a log that
    repeats a completed date, as the source allows, the current streak's
    walk stops at the repeat.
  - `Streaks` holds the sort and run arithmetic they rest on. `Rounding` holds
    the integer form of `Math.round(100 * part / whole)`.
- `TasksContext` holds the to-do store: append, update by id, delete by id
  and toggle.
- `Dashboard` and `Stats` compute the summary figures over the two stores.
  The dashboard's best-streak card (src/pages/Dashboard.tsx:168-171) is the
  same reduce as the statistics page's highest streak, `Stats.HighestStreak`.
- `AuthUtils` and `AuthActions` hold the sign-in and sign-up rules, the stored
  user, sign-out, the password-recovery steps, the profile update and the
  toast table.
- `SignUp`, `ResetPassword` and `Profile` hold the password forms' checks.
  The first two make the same two checks in opposite orders.
- `AIChatContext` holds the chat state: the model-to-provider map, the
  keyword choice of reply, and the state changes of sending and clearing.
- `AdminUsers` and `AdminActivity` hold the two administrator pages: search,
  create, block, delete, and five-per-page paging.
- `Text`, `Lists` and `Wrappers` are shared helpers:
  - lower-casing, substring search, `split('@')[0]` and decimal text;
  - `filter` and `slice`;
  - `Option`.

Calendar dates are integer day numbers (one more is the next day). The clock,
"today", ids built from the time and the outcome of awaited calls are
parameters.

## Model

| member | source | states |
|---|---|---|
| Text.Lower | src/pages/admin/AdminActivity.tsx:135-140 | `toLowerCase` keeps the length and maps each character on its own; only A-Z change |
| Text.ContainsIsOccurrence | src/pages/admin/AdminActivity.tsx:136-139 | `includes` holds exactly when the term occurs at some position of the text |
| Text.BeforeFirst | src/utils/authUtils.ts:30 | `split('@')[0]` is a prefix of the email, holds no '@', and stops exactly at the first '@' (or at the end) |
| Text.TrimStart | src/contexts/AIChatContext.tsx:113 | trimming leading white space never lengthens the text and leaves nothing or a non-space first character |
| Text.IsBlank | src/contexts/AIChatContext.tsx:113 | `!content.trim()` holds exactly when trimming the leading white space leaves nothing |
| Text.BlankTrimsAway | src/contexts/AIChatContext.tsx:113 | a text is all white space exactly when trimming empties it |
| Text.Decimal | src/pages/admin/AdminUsers.tsx:145 | the decimal text of a number is non-empty, all digits, and has no leading zero unless it is the single digit |
| Text.DecimalCanonical | src/pages/admin/AdminUsers.tsx:145 | any digit string without a leading zero that denotes `n` is exactly the decimal text of `n` |
| Text.DecimalRoundTrip | src/pages/admin/AdminUsers.tsx:145 | reading back the decimal text of `n` gives `n` |
| Text.DecimalInjective | src/contexts/AIChatContext.tsx:117 | different numbers have different decimal texts, so time-based ids differ when the times differ |
| Lists.Filter | src/contexts/TasksContext.tsx:97 | `filter` never grows the list and keeps only accepted elements |
| Lists.FilterMembers | src/contexts/TasksContext.tsx:97 | an element survives `filter` exactly when it was there and the test accepts it |
| Lists.FilterConcat | src/contexts/TasksContext.tsx:97 | `filter` distributes over concatenation, so the survivors keep their relative order |
| Lists.FilterKeepsAll | src/contexts/TasksContext.tsx:97 | a test accepting every element leaves the list unchanged |
| Lists.FilterCount | src/pages/Dashboard.tsx:43 | the filtered length equals the full length exactly when all are accepted, and is 0 exactly when none is |
| Lists.Slice | src/pages/admin/AdminActivity.tsx:145 | `slice(start, end)` has the clamped length and the elements from `start` on |
| Rounding.RoundedPercent | src/contexts/CohesionContext.tsx:221 | the result is the integer nearest to `100 * part / whole`, with halves rounded up |
| Rounding.RoundedPercentBounds | src/contexts/CohesionContext.tsx:221 | a share of a whole rounds to 0..100, to 100 exactly when at most half a percent is missing, and to 0 exactly when below half a percent |
| Rounding.RoundedPercentExtremes | src/contexts/CohesionContext.tsx:221 | all of the whole gives 100 and none gives 0 |
| Streaks.Insert | src/contexts/CohesionContext.tsx:188 | insertion adds exactly one element, as a multiset |
| Streaks.InsertAscending | src/contexts/CohesionContext.tsx:188 | insertion into an ascending list keeps it ascending |
| Streaks.SortAscending | src/contexts/CohesionContext.tsx:185-188 | the oldest-first sort is ascending and a permutation of its input |
| Streaks.Reverse | src/contexts/CohesionContext.tsx:144 | reversal keeps the length, mirrors the indices and is a permutation |
| Streaks.SortDescending | src/contexts/CohesionContext.tsx:142-144 | the newest-first sort is descending and a permutation of its input |
| Streaks.DistinctCountsOne | src/contexts/CohesionContext.tsx:142-144 | a list without repeats holds every element at most once |
| Streaks.CountsOneDistinct | src/contexts/CohesionContext.tsx:142-144 | a list holding every element at most once has no repeats |
| Streaks.SortKeepsDistinct | src/contexts/CohesionContext.tsx:142-144 | sorting distinct dates in either order keeps them distinct |
| Streaks.SortSameMembers | src/contexts/CohesionContext.tsx:142-144 | both sorted orders hold exactly the original dates |
| Streaks.RunFrom | src/contexts/CohesionContext.tsx:161-175 | the walk counts at least the head and never runs past the end |
| Streaks.RunFromSteps | src/contexts/CohesionContext.tsx:161-175 | every counted entry is one day before the previous one, and the walk stops at the first step that is not one day |
| Streaks.HeadRunIsMaximal | src/contexts/CohesionContext.tsx:161-177 | on distinct newest-first dates the walk covers exactly the block of consecutive days ending at the newest date; the day before is absent |
| Streaks.RunEndingAt | src/contexts/CohesionContext.tsx:195-209 | the pass's current run at index `i` is between 1 and `i + 1` |
| Streaks.BestRunUpTo | src/contexts/CohesionContext.tsx:195-209 | the pass's best run is at least the current run and at most `i + 1` |
| Streaks.LongestRun | src/contexts/CohesionContext.tsx:190-211 | the longest-streak figure is 0 exactly for no dates and never exceeds their number |
| Streaks.BestDominates | src/contexts/CohesionContext.tsx:205 | the best figure is at least every run seen so far |
| Streaks.BestIsSomeRun | src/contexts/CohesionContext.tsx:205 | the best figure is a run actually seen |
| Streaks.RunEndingAtCovers | src/contexts/CohesionContext.tsx:203-208 | the run counted at an index is a block of consecutive dates ending there |
| Streaks.RunEndingAtIsLongest | src/contexts/CohesionContext.tsx:203-208 | on distinct ascending dates no block ending at an index is longer than the run counted there |
| Streaks.LongestRunIsMaximal | src/contexts/CohesionContext.tsx:190-211 | on distinct ascending dates the figure is the length of the longest block: some block has it, none is longer |
| CohesionContext.FindById | src/contexts/CohesionContext.tsx:138-139 | `find` gives a habit of the list with the id, and none exactly when no habit has it |
| CohesionContext.FindByIdIsFirst | src/contexts/CohesionContext.tsx:138-139 | when ids repeat, `find` gives the first habit with the id: the one at the first index holding it |
| CohesionContext.CompletedDates | src/contexts/CohesionContext.tsx:185-187 | the completed dates are at most as many as the log entries |
| CohesionContext.CompletedDatesMembers | src/contexts/CohesionContext.tsx:143 | a date is among them exactly when some completed entry has it |
| CohesionContext.CompletedDatesConcat | src/contexts/CohesionContext.tsx:143 | the completed dates of two log parts are those of each part, in order |
| CohesionContext.CompletedDatesExtremes | src/contexts/CohesionContext.tsx:218 | an all-completed log yields all its dates; a log with nothing completed yields none |
| CohesionContext.CompletedDatesDistinct | src/contexts/CohesionContext.tsx:143 | a log with distinct dates yields distinct completed dates |
| CohesionContext.CompletedCountPermutation | src/contexts/CohesionContext.tsx:218 | reordering a log does not change how many of its days are completed |
| CohesionContext.DateIndex | src/contexts/CohesionContext.tsx:120 | `findIndex` gives the first index with the date, or -1 when none has it |
| CohesionContext.Upsert | src/contexts/CohesionContext.tsx:120-128 | the new entry is in the log; a logged date keeps the length, an unlogged one is appended at the end; every entry for another date is kept in place |
| CohesionContext.UpsertReplacesInPlace | src/contexts/CohesionContext.tsx:123-125 | a date already logged has its first entry replaced in place; the length and every other entry are kept |
| CohesionContext.UpsertAppends | src/contexts/CohesionContext.tsx:126-127 | a date not yet logged gets one new entry at the end |
| CohesionContext.UpsertWritesWholeEntry | src/contexts/CohesionContext.tsx:125-127 | afterwards the date's entry is exactly the new date, flag and note, so an omitted note erases an earlier one |
| CohesionContext.UpsertKeepsDistinct | src/contexts/CohesionContext.tsx:120-128 | a log with distinct dates keeps them distinct |
| CohesionContext.UpsertIdempotent | src/contexts/CohesionContext.tsx:120-128 | marking the same day twice the same way equals marking it once |
| CohesionContext.MarkDayIn | src/contexts/CohesionContext.tsx:117-134 | `markDay` keeps the number of habits |
| CohesionContext.MarkDayOnlyMatching | src/contexts/CohesionContext.tsx:118-132 | habits with another id are untouched; a matching habit changes in its log only; no match leaves the list unchanged |
| CohesionContext.MarkDayKeepsDistinct | src/contexts/CohesionContext.tsx:116-135 | if every log has distinct dates, they still do afterwards |
| CohesionContext.MarkDayIdempotent | src/contexts/CohesionContext.tsx:116-135 | repeating the same `markDay` call changes nothing |
| CohesionContext.NewCohesion | src/contexts/CohesionContext.tsx:81-86 | the new habit copies the draft's fields, has the given id and time, and an empty log |
| CohesionContext.ApplyPatch | src/contexts/CohesionContext.tsx:98 | `{ ...c, ...cohesion }` overwrites exactly the fields the patch carries and keeps the rest |
| CohesionContext.UpdateIn | src/contexts/CohesionContext.tsx:96-100 | `updateCohesion` keeps the number of habits |
| CohesionContext.UpdateOnlyMatching | src/contexts/CohesionContext.tsx:97-99 | only habits with the id change; on those every one of the eight fields the patch carries is overwritten by its value and every other field is kept; no match leaves the list unchanged |
| CohesionContext.RemoveById | src/contexts/CohesionContext.tsx:109 | deleting never grows the list and no habit with the id survives |
| CohesionContext.RemoveByIdSpec | src/contexts/CohesionContext.tsx:109 | deleting removes every habit with the id, keeps the others in order, and changes nothing without a match |
| CohesionContext.RemoveKeepsDistinct | src/contexts/CohesionContext.tsx:109 | deleting keeps every remaining log free of repeated dates |
| CohesionContext.UpdateKeepsDistinct | src/contexts/CohesionContext.tsx:96-100 | an update keeps every log free of repeated dates when the patch brings no log with a repeat |
| CohesionContext.CompletedDatesEmpty | src/contexts/CohesionContext.tsx:143 | no completed date exactly when no entry is done |
| CohesionContext.LatestOf | src/contexts/CohesionContext.tsx:142-149 | every non-empty list of dates has a latest date |
| CohesionContext.SortedHeadIsLatest | src/contexts/CohesionContext.tsx:142-149 | the head of the newest-first order is the latest completed date |
| CohesionContext.CurrentStreakOfDates | src/contexts/CohesionContext.tsx:137-178 | the current streak is 0 with no completed dates and never exceeds their number |
| CohesionContext.CurrentStreakOf | src/contexts/CohesionContext.tsx:142-177 | a log's current streak never exceeds its length and is 0 when nothing is done |
| CohesionContext.CurrentStreak | src/contexts/CohesionContext.tsx:137-178 | `getCurrentStreak` is 0 for an unknown id and never exceeds the length of the found habit's log |
| CohesionContext.CurrentStreakCases | src/contexts/CohesionContext.tsx:146-158 | with something completed, the streak is 0 exactly when the latest completed date is neither today nor yesterday |
| CohesionContext.CurrentStreakIsRun | src/contexts/CohesionContext.tsx:149-177 | a positive current streak `n` means the `n` days ending at the latest completed date are all completed and the day before them is not |
| CohesionContext.LongestStreakOfDates | src/contexts/CohesionContext.tsx:180-212 | the longest streak is 0 exactly when nothing is completed and never exceeds the completed count |
| CohesionContext.LongestStreakOf | src/contexts/CohesionContext.tsx:185-211 | a log's longest streak never exceeds its length and is 0 exactly when nothing is done |
| CohesionContext.LongestStreak | src/contexts/CohesionContext.tsx:180-212 | `getLongestStreak` is 0 for an unknown id, and for a known one 0 exactly when nothing in its log is done |
| CohesionContext.LongestStreakIsLongestBlock | src/contexts/CohesionContext.tsx:180-212 | with distinct dates it is the length of the longest block of consecutive completed days: none is longer, one has it |
| CohesionContext.CurrentAtMostLongest | src/contexts/CohesionContext.tsx:137-212 | with distinct dates the current streak never exceeds the longest |
| CohesionContext.CompletionRateOf | src/contexts/CohesionContext.tsx:218-221 | a log's completion rate is a percentage, at most 100 |
| CohesionContext.CompletionRate | src/contexts/CohesionContext.tsx:214-222 | `getCompletionRate` is at most 100, 0 for an unknown id, and 0 for a habit with an empty log |
| CohesionContext.CompletionRateExtremes | src/contexts/CohesionContext.tsx:221 | an all-completed non-empty log rates 100; a log with nothing completed rates 0 |
| CohesionContext.CompletionRateOrderFree | src/contexts/CohesionContext.tsx:218-221 | the rate does not depend on the order of the log |
| CohesionContext.GetCurrentStreak | src/contexts/CohesionContext.tsx:137-178 | the loop returns exactly the specified current streak, 0 for an unknown id |
| CohesionContext.GetLongestStreak | src/contexts/CohesionContext.tsx:180-212 | the loop returns exactly the specified longest streak, 0 for an unknown id |
| CohesionContext.CohesionStore.AddCohesion | src/contexts/CohesionContext.tsx:80-93 | appends one habit with an empty log; earlier habits unchanged; logs free of repeated dates stay so |
| CohesionContext.CohesionStore.UpdateCohesion | src/contexts/CohesionContext.tsx:95-105 | the list becomes the per-id update of the old list; logs free of repeated dates stay so unless the patch brings a log with a repeat |
| CohesionContext.CohesionStore.DeleteCohesion | src/contexts/CohesionContext.tsx:107-114 | the list becomes the old list without the id; logs free of repeated dates stay so |
| CohesionContext.CohesionStore.MarkDay | src/contexts/CohesionContext.tsx:116-135 | the list becomes the upsert of the old list, and distinct dates in every log are preserved |
| TasksContext.NewTask | src/contexts/TasksContext.tsx:68-74 | a new task copies the draft, is not completed, and carries the given id and time |
| TasksContext.ApplyPatch | src/contexts/TasksContext.tsx:86 | `{ ...t, ...task }` overwrites exactly the fields the patch carries and keeps the rest |
| TasksContext.UpdateIn | src/contexts/TasksContext.tsx:84-88 | `updateTask` keeps the number of tasks |
| TasksContext.UpdateOnlyMatching | src/contexts/TasksContext.tsx:84-88 | only tasks with the id change; on those every one of the seven fields the patch carries is overwritten by its value (an optional field possibly by `undefined`) and every other field is kept; no match leaves the list unchanged |
| TasksContext.RemoveById | src/contexts/TasksContext.tsx:97 | deleting never grows the list and no task with the id survives |
| TasksContext.RemoveByIdSpec | src/contexts/TasksContext.tsx:97 | deleting never grows the list, removes every task with the id, keeps the rest in order, and changes nothing without a match |
| TasksContext.Toggled | src/contexts/TasksContext.tsx:105-117 | `toggleComplete` keeps the number of tasks |
| TasksContext.ToggleFlipsOnlyMatching | src/contexts/TasksContext.tsx:106-115 | `completed` flips exactly on tasks with the id, and no other field changes |
| TasksContext.ToggleTwiceRestores | src/contexts/TasksContext.tsx:104-118 | two toggles of the same id restore the list |
| TasksContext.TaskStore.AddTask | src/contexts/TasksContext.tsx:68-81 | appends the new, uncompleted task |
| TasksContext.TaskStore.UpdateTask | src/contexts/TasksContext.tsx:83-93 | the list becomes the per-id update of the old list |
| TasksContext.TaskStore.DeleteTask | src/contexts/TasksContext.tsx:95-102 | the list becomes the old list without the id and does not grow |
| TasksContext.TaskStore.ToggleComplete | src/contexts/TasksContext.tsx:104-118 | the list becomes the per-id toggle of the old list |
| Dashboard.CompletedTaskCount | src/pages/Dashboard.tsx:43-44 | completed tasks never exceed all tasks |
| Dashboard.CompletedTaskCountExtremes | src/pages/Dashboard.tsx:43 | the count equals the total exactly when all are done, and is 0 exactly when none is |
| Dashboard.CompletionPercentage | src/pages/Dashboard.tsx:45 | 0 with no tasks, otherwise the nearest integer to the completed share in percent, so within 0..100 |
| Dashboard.CompletionPercentageExtremes | src/pages/Dashboard.tsx:45 | 100 when all tasks are done, 0 when none is; 100 exactly when at most one task in two hundred is open |
| Dashboard.HabitPreview | src/pages/Dashboard.tsx:112 | the habit card shows the first three habits, or all when fewer, in list order |
| Stats.Sum | src/pages/Stats.tsx:13 | the sum is 0 for no values and at least each value |
| Stats.SumZero | src/pages/Stats.tsx:13 | the sum is 0 exactly when every value is |
| Stats.SumBound | src/pages/Stats.tsx:19 | values each at most `cap` sum to at most `cap` times their count |
| Stats.SumOfEqual | src/pages/Stats.tsx:19 | equal values sum to the value times their count |
| Stats.Max | src/pages/Stats.tsx:14-17 | the maximum is at least every value, and is 0 or one of them |
| Stats.TotalStreak | src/pages/Stats.tsx:13 | `totalStreak` is 0 with no habits, at least each current streak, and 0 exactly when all are |
| Stats.HighestStreak | src/pages/Stats.tsx:14-17 | `highestStreak` is 0 with no habits, at least each longest streak, and 0 or one of them |
| Stats.MeanOfCopies | src/pages/Stats.tsx:19 | the mean of equal values is that value |
| Stats.MeanBound | src/pages/Stats.tsx:19 | a mean of values at most 100 is at most 100 |
| Stats.AverageCompletion | src/pages/Stats.tsx:18-20 | `averageCompletion` is 0 with no habits and always within 0..100 |
| Stats.AverageOfEqualRates | src/pages/Stats.tsx:18-20 | when every habit has the same rate, the average is that rate |
| Stats.StreakData | src/pages/Stats.tsx:23-27 | one bar per habit, in list order, with its name; each bar is bounded by the page's total and highest figures |
| Stats.CompletionData | src/pages/Stats.tsx:29-32 | one slice per habit, in list order, with its name and a percentage |
| Stats.StreakBarsOrdered | src/pages/Stats.tsx:23-27 | when no log repeats a date, each bar's current streak is at most its longest |
| AuthUtils.CreateMockUser | src/utils/authUtils.ts:26-34 | the user keeps the email and the admin flag; a non-empty name is kept, an empty one becomes the text before '@'; the id is "user-" and the time |
| AuthUtils.IsValidAdmin | src/utils/authUtils.ts:22-24 | the one accepted pair has a non-empty email containing '@' and a password of at least six characters, so it passes every form's checks |
| AuthUtils.LocalStorage.GetStoredUser | src/utils/authUtils.ts:7-10 | a user is read back only from a user entry under the user key; no key, no user |
| AuthUtils.Message | src/utils/authUtils.ts:40-58 | the table has a non-empty title and description for every pair except (error, logout) |
| AuthUtils.LocalStorage.StoreUser | src/utils/authUtils.ts:12-14 | writes the user key only; reading it back gives the same user |
| AuthUtils.LocalStorage.RemoveUser | src/utils/authUtils.ts:16-20 | removes exactly the user, habit and task keys; no user is stored afterwards |
| AuthUtils.AuthToast | src/utils/authUtils.ts:36-65 | a toast exists for every pair except (error, logout); it is destructive exactly for errors |
| AuthActions.SignInOutcome | src/hooks/useAuthActions.ts:24-47 | sign-in succeeds exactly for a non-empty email and password that are not the admin email with a wrong password; the user is admin exactly for the admin pair, is named after the email's local part, and lands on the admin page or the dashboard; each refusal has its message |
| AuthActions.SignUpOutcome | src/hooks/useAuthActions.ts:65-78 | sign-up succeeds exactly when all three fields are non-empty; the user is never admin and lands on the dashboard |
| AuthActions.Merge | src/hooks/useAuthActions.ts:145 | `{...currentUser, ...data}` changes only the given name and email |
| AuthActions.AuthSession.SignIn | src/hooks/useAuthActions.ts:18-57 | on success the user is set and stored under the user key with every other storage key untouched, the success toast shows and the page changes; on failure storage is untouched and only the error toast shows; loading ends false |
| AuthActions.AuthSession.SignUp | src/hooks/useAuthActions.ts:59-88 | the same for sign-up: only the user key is written on success, nothing on failure |
| AuthActions.AuthSession.SignOut | src/hooks/useAuthActions.ts:90-95 | no user afterwards, in memory or storage; the home page and the logout toast |
| AuthActions.AuthSession.ForgotPassword | src/hooks/useAuthActions.ts:97-115 | only the toast and the move to the home page; loading ends false |
| AuthActions.AuthSession.ResetPassword | src/hooks/useAuthActions.ts:117-135 | only the toast and the move to the login page; loading ends false |
| AuthActions.AuthSession.UpdateProfile | src/hooks/useAuthActions.ts:137-163 | a signed-in user is merged and stored under the user key, every other key untouched; a signed-out session stays signed out with storage untouched; the toast shows either way |
| SignUp.Validate | src/pages/SignUp.tsx:25-33 | accepted exactly when the pair matches and has at least 6 characters; a mismatch is reported before length |
| SignUp.SignUpForm.HandleSubmit | src/pages/SignUp.tsx:21-36 | `signUp` is called once exactly when validation passes; otherwise the error is set |
| ResetPassword.TokenOf | src/pages/ResetPassword.tsx:25 | an absent token parameter becomes the empty token |
| ResetPassword.Validate | src/pages/ResetPassword.tsx:31-39 | accepted exactly when the pair matches and has at least 6 characters; length is reported before a mismatch |
| ResetPassword.SameAcceptanceAsSignUp | src/pages/ResetPassword.tsx:31-39 | reset and sign-up accept the same pairs, but a short mismatched pair gets the length error here and the mismatch error there |
| ResetPassword.ResetPasswordForm.HandleSubmit | src/pages/ResetPassword.tsx:27-47 | `resetPassword(token, password)` is called exactly when validation passes; a failure shows the generic error |
| ResetPassword.ResetPasswordForm.constructor | src/pages/ResetPassword.tsx:20-25 | the form starts empty and holds the token read from the address, or the empty token |
| Profile.ProfileRequest | src/pages/Profile.tsx:36 | the name form sends the name and no email |
| Profile.ProfileRequestKeepsEmail | src/pages/Profile.tsx:36 | saving the name form renames the user and never changes their email, id or role |
| Profile.ValidateNewPassword | src/pages/Profile.tsx:49-57 | accepted exactly when the new pair matches and has at least 6 characters; mismatch first; the current password plays no part |
| Profile.ProfileForm.HandleProfileUpdate | src/pages/Profile.tsx:30-42 | one name-only update; success or error text by outcome |
| Profile.ProfileForm.constructor | src/pages/Profile.tsx:21-28 | the form starts with the signed-in user's name and email (empty when signed out) and empty password fields and messages |
| Profile.ProfileForm.HandlePasswordUpdate | src/pages/Profile.tsx:44-70 | a refusal sets the error and keeps the fields; acceptance sets success and clears all three fields |
| AIChatContext.ProviderFor | src/contexts/AIChatContext.tsx:173-190 | each of the six models maps to its own provider, stated both ways per pair |
| AIChatContext.ProviderForIsBijective | src/contexts/AIChatContext.tsx:173-190 | the model-to-provider map is a bijection |
| AIChatContext.SystemMessage | src/contexts/AIChatContext.tsx:70-77 | the first message is the system prompt with id "system-1" |
| AIChatContext.ChooseReply | src/contexts/AIChatContext.tsx:141-149 | stress keywords win, then sleep, then anxiety, else the default reply |
| AIChatContext.MissingKeyError | src/contexts/AIChatContext.tsx:132 | the missing-key error names the provider first |
| AIChatContext.HasKey | src/contexts/AIChatContext.tsx:128-133 | a key counts only when present and non-empty |
| AIChatContext.SavedKeyCounts | src/contexts/AIChatContext.tsx:83-87 | saving a non-empty key makes it count and leaves every other provider as it was |
| AIChatContext.ReplyIgnoresCase | src/contexts/AIChatContext.tsx:138-149 | texts equal after lower-casing get the same reply |
| AIChatContext.UserMessage | src/contexts/AIChatContext.tsx:116-121 | the user message has the content, the send time and the time as its id |
| AIChatContext.AssistantMessage | src/contexts/AIChatContext.tsx:151-156 | the reply carries the chosen text and an id one past its time |
| AIChatContext.ReplyIdDiffers | src/contexts/AIChatContext.tsx:116-156 | a reply recorded at or after the send never shares the user message's id |
| AIChatContext.ChatState.SetApiKey | src/contexts/AIChatContext.tsx:83-87 | only the named provider's key changes |
| AIChatContext.ChatState.constructor | src/contexts/AIChatContext.tsx:70-81 | the chat starts closed and idle on GPT-4o, holding only the system prompt and the loaded keys |
| AIChatContext.ChatState.SetSelectedModel | src/contexts/AIChatContext.tsx:80 | only the selected model changes |
| AIChatContext.ChatState.ToggleChat | src/contexts/AIChatContext.tsx:97-99 | flips `isOpen` and nothing else |
| AIChatContext.ChatState.ClearMessages | src/contexts/AIChatContext.tsx:101-110 | exactly one message is left: the system prompt |
| AIChatContext.ChatState.SendMessage | src/contexts/AIChatContext.tsx:112-170 | blank content changes nothing; otherwise the user message is appended first, then one reply or, with no key, the error; loading ends false |
| AdminActivity.FilteredActivitiesSpec | src/pages/admin/AdminActivity.tsx:135-140 | the search keeps exactly the matching activities, in order; an empty term keeps all |
| AdminActivity.Matches | src/pages/admin/AdminActivity.tsx:136-139 | the empty search term matches every activity |
| AdminActivity.FilteredActivities | src/pages/admin/AdminActivity.tsx:135-140 | the search never grows the list and keeps only matching activities |
| AdminActivity.TotalPages | src/pages/admin/AdminActivity.tsx:143 | the fewest pages of five holding all items; 0 exactly for no items |
| AdminActivity.PageOf | src/pages/admin/AdminActivity.tsx:144-145 | the page holds up to five items starting at `(page - 1) * 5` |
| AdminActivity.PagesUpToPrefix | src/pages/admin/AdminActivity.tsx:144-145 | the first `k` pages are the first `5k` items |
| AdminActivity.PagesCoverAll | src/pages/admin/AdminActivity.tsx:143-145 | pages 1 to `totalPages` together are the whole list, in order |
| AdminActivity.PageEmptyIffPastLast | src/pages/admin/AdminActivity.tsx:143-145 | a page is empty exactly when it lies past the last page |
| AdminActivity.ActionText | src/pages/admin/AdminActivity.tsx:148-158 | the six known codes get a label other than the code itself; any other code shows as it is |
| AdminActivity.ActionColor | src/pages/admin/AdminActivity.tsx:161-171 | gray exactly for unknown codes; green exactly for the two completion codes |
| AdminActivity.ActivityView.SetSearchTerm | src/pages/admin/AdminActivity.tsx:190-199 | a new term keeps the page number, so a page past the new last one shows no rows |
| AdminActivity.ActivityView.constructor | src/pages/admin/AdminActivity.tsx:129-132 | the page starts on page 1 with an empty search |
| AdminActivity.ActivityView.Previous | src/pages/admin/AdminActivity.tsx:255 | steps back one page, not below 1 |
| AdminActivity.ActivityView.Next | src/pages/admin/AdminActivity.tsx:273 | steps forward one page, not past the last |
| AdminActivity.ActivityView.GoTo | src/pages/admin/AdminActivity.tsx:264 | the numbered button selects a page that shows rows |
| AdminUsers.NewUser | src/pages/admin/AdminUsers.tsx:144-151 | the new user's id is a digit string without a leading zero denoting one more than the list length, hence exactly that number's decimal text; active, never logged in |
| AdminUsers.WithStatus | src/pages/admin/AdminUsers.tsx:164-166 | blocking or unblocking keeps the number of users |
| AdminUsers.WithStatusSpec | src/pages/admin/AdminUsers.tsx:164-166 | only the status of users with the id changes; setting it twice equals once |
| AdminUsers.RemoveUserSpec | src/pages/admin/AdminUsers.tsx:304 | deleting removes the users with the id and keeps the rest in order |
| AdminUsers.RemoveUser | src/pages/admin/AdminUsers.tsx:304 | deleting never grows the list and no user with the id survives |
| AdminUsers.NewIdCanRepeat | src/pages/admin/AdminUsers.tsx:142-161 | after user "1" of "1" and "2" is deleted, the next new user gets id "2" again |
| AdminUsers.FilteredUsersSpec | src/pages/admin/AdminUsers.tsx:186-189 | the search keeps exactly the users whose name or email matches, in order; an empty term keeps all |
| AdminUsers.UserMatches | src/pages/admin/AdminUsers.tsx:187-188 | the empty search term matches every user |
| AdminUsers.FilteredUsers | src/pages/admin/AdminUsers.tsx:186-189 | the search never grows the list and keeps only matching users |
| AdminUsers.ActivitiesOfSpec | src/pages/admin/AdminUsers.tsx:177-179 | a user's history holds exactly their activities, in order |
| AdminUsers.ActivitiesOf | src/pages/admin/AdminUsers.tsx:177-179 | a user's history never grows the log and holds only their activities |
| AdminUsers.UsersAdmin.CreateUser | src/pages/admin/AdminUsers.tsx:142-161 | appends the new user; earlier users unchanged |
| AdminUsers.UsersAdmin.ToggleUserStatus | src/pages/admin/AdminUsers.tsx:163-175 | the list becomes the status update of the old list |
| AdminUsers.UsersAdmin.DeleteUser | src/pages/admin/AdminUsers.tsx:303-309 | the list becomes the old list without the id |
| AdminUsers.UsersAdmin.SetSearchTerm | src/pages/admin/AdminUsers.tsx:217-224 | typing or clearing the search changes only the term |

## Left out

- Persistence:
  - Loading and saving the habit and task lists as JSON are not modelled (src/contexts/CohesionContext.tsx:62-78, src/contexts/TasksContext.tsx:50-66). Nor is the chat keys' storage.
  - Because saving happens only when the list is non-empty, deleting the last habit or task does not clear the stored copy. The model has no stored copy to show this.
- Key-value storage: `LocalStorage` holds typed entries, not JSON text. Reading the stored user back assumes `JSON.parse(JSON.stringify(user))` gives the same user.
- Dates and times:
  - The clock (`Date.now()`, `new Date()`), ISO date strings and the one-second delays are parameters or collapsed. Dates are integer day numbers.
  - The source parses date-only strings as UTC midnight, but compares them with local midnight for "today". The model assumes the two agree, which holds only at UTC+0.
  - Two different strings for the same day (for example with a time part) count as the same day here. In the source they are two log entries.
- Floating point: `Math.round` over a float ratio is modelled as exact round-half-up on integers. The `toFixed(0)` display of the average is display formatting.
- AIChatContext.ChatState.SendMessage: the reply that `setTimeout` adds a second later is appended within the same call. Other state changes during that second (a second message, clearing the chat) are not interleaved.
- Toasts: only those of the authentication hook and the chat's error path are recorded. The confirmation toasts of the stores, the admin pages and the API-key form are display only.
- Navigation is recorded as a location string; routing and the protected routes are not modelled.
- Error paths the code cannot reach are not modelled:
  - the catch branches of `forgotPassword`, `resetPassword` and `updateProfile`, whose bodies never throw;
  - the catch branch of the profile password update, whose body calls nothing.
  - The pages' own catch branches are modelled through a `failed` parameter.
- Sign-in and sign-up errors other than the two thrown messages cannot occur, so the fallback description "เกิดข้อผิดพลาด โปรดลองอีกครั้ง" is not modelled.
- Text.Lower: `toLowerCase` is modelled for the ASCII letters A-Z only. Thai has no case. Other scripts' case mappings are not modelled.
- Password lengths count Unicode characters, where `length` counts UTF-16 code units. They differ only for characters outside the Basic Multilingual Plane.
- The create-user form's zod schema (src/pages/admin/AdminUsers.tsx:111-122) is form validation in a library and is not modelled. `NewUser` takes values that passed it.
- The dashboard's random quote (src/pages/Dashboard.tsx:36-39) is randomness.
- Pages whose wiring names context functions that do not exist are not part of this model: the habit detail page and the to-do page's `toggleTask`.
- Rendering, the mock data lists and the remaining pages are display only.

=== FILE: admin_activity.dfy ===
/**
 * The admin activity log page: a case-insensitive search over four fields of
 * each activity, five activities per page, and the page number that the
 * previous, next and numbered page buttons step.
 */
module AdminActivity {
  import opened Text
  import opened Lists

  datatype Activity = Activity(
    id: string,
    userId: string,
    userName: string,
    email: string,
    action: string,
    timestamp: string,
    details: string)

  const ItemsPerPage: nat := 5

  /** The search test: the lower-cased term occurs in the lower-cased user name, email, action or details. */
  function Matches(a: Activity, term: string): (ok: bool)
    ensures term == "" ==> ok
  {
    ContainsEmpty(Lower(a.userName));
    var t := Lower(term);
    Contains(Lower(a.userName), t) || Contains(Lower(a.email), t) || Contains(Lower(a.action), t) || Contains(Lower(a.details), t)
  }

  function MatchesTerm(term: string): Activity -> bool {
    (a: Activity) => Matches(a, term)
  }

  /** `filteredActivities`. */
  function FilteredActivities(activities: seq<Activity>, term: string): (r: seq<Activity>)
    ensures |r| <= |activities|
    ensures forall i :: 0 <= i < |r| ==> Matches(r[i], term)
  {
    var r := Filter(activities, MatchesTerm(term));
    assert forall i :: 0 <= i < |r| ==> MatchesTerm(term)(r[i]);
    r
  }

  /**
   * The search keeps exactly the matching activities, in their order, and an
   * empty term keeps them all.
   */
  lemma FilteredActivitiesSpec(activities: seq<Activity>, term: string)
    ensures forall a :: a in FilteredActivities(activities, term) <==> a in activities && Matches(a, term)
    ensures forall x, y :: activities == x + y ==>
      FilteredActivities(activities, term) == FilteredActivities(x, term) + FilteredActivities(y, term)
    ensures term == "" ==> FilteredActivities(activities, term) == activities
  {
    forall a {
      FilterMembers(activities, MatchesTerm(term), a);
    }
    forall x, y | activities == x + y {
      FilterConcat(x, y, MatchesTerm(term));
    }
    if term == "" {
      forall i | 0 <= i < |activities|
        ensures Matches(activities[i], term)
      {
        ContainsEmpty(Lower(activities[i].userName));
      }
      FilterKeepsAll(activities, MatchesTerm(term));
    }
  }

  /** `Math.ceil(n / itemsPerPage)`: the fewest pages of five that hold `n` items. */
  function TotalPages(n: nat): (pages: nat)
    ensures n <= pages * ItemsPerPage
    ensures pages == 0 || (pages - 1) * ItemsPerPage < n
    ensures pages == 0 <==> n == 0
  {
    (n + ItemsPerPage - 1) / ItemsPerPage
  }

  /** `paginatedActivities`: the slice starting at `(currentPage - 1) * itemsPerPage`. */
  function PageOf<T>(items: seq<T>, currentPage: nat): (page: seq<T>)
    requires currentPage >= 1
    ensures var start := (currentPage - 1) * ItemsPerPage;
      |page| == if start < |items| then (if |items| - start < ItemsPerPage then |items| - start else ItemsPerPage) else 0
    ensures forall i :: 0 <= i < |page| ==> page[i] == items[(currentPage - 1) * ItemsPerPage + i]
  {
    var startIndex := (currentPage - 1) * ItemsPerPage;
    Slice(items, startIndex, startIndex + ItemsPerPage)
  }

  /** Pages `1..k`, one after another. */
  function PagesUpTo<T>(items: seq<T>, k: nat): seq<T> {
    if k == 0 then [] else PagesUpTo(items, k - 1) + PageOf(items, k)
  }

  /** The first `k` pages are the first `5k` items (or all of them). */
  lemma {:induction false} PagesUpToPrefix<T>(items: seq<T>, k: nat)
    ensures PagesUpTo(items, k) == items[..if k * ItemsPerPage < |items| then k * ItemsPerPage else |items|]
  {
    if k > 0 {
      PagesUpToPrefix(items, k - 1);
      var lo := if (k - 1) * ItemsPerPage < |items| then (k - 1) * ItemsPerPage else |items|;
      var hi := if k * ItemsPerPage < |items| then k * ItemsPerPage else |items|;
      assert PageOf(items, k) == items[lo..hi];
      assert items[..lo] + items[lo..hi] == items[..hi];
    }
  }

  /** Concatenating pages 1 to `totalPages` gives back the whole list, in order. */
  lemma PagesCoverAll<T>(items: seq<T>)
    ensures PagesUpTo(items, TotalPages(|items|)) == items
  {
    PagesUpToPrefix(items, TotalPages(|items|));
  }

  /** A page past the last one is empty; every page up to the last one shows something. */
  lemma PageEmptyIffPastLast<T>(items: seq<T>, currentPage: nat)
    requires currentPage >= 1
    ensures PageOf(items, currentPage) == [] <==> currentPage > TotalPages(|items|)
  {
  }

  /** `getActionText`: a Thai label for the six known action codes, any other code as it is. */
  function ActionText(action: string): (text: string)
    ensures !IsKnownAction(action) ==> text == action
    ensures IsKnownAction(action) ==> text != action
  {
    if action == "login" then "เข้าสู่ระบบ"
    else if action == "completed_cohesion" then "ทำกิจกรรมเสร็จสมบูรณ์"
    else if action == "task_completed" then "ทำภารกิจเสร็จสมบูรณ์"
    else if action == "profile_update" then "อัปเดตโปรไฟล์"
    else if action == "signup" then "สมัครสมาชิก"
    else if action == "password_reset" then "รีเซ็ตรหัสผ่าน"
    else action
  }

  predicate IsKnownAction(action: string) {
    action in {"login", "completed_cohesion", "task_completed", "profile_update", "signup", "password_reset"}
  }

  const GrayBadge := "bg-gray-100 text-gray-800"

  /** `getActionColor`: a badge colour per known action code, gray for any other. */
  function ActionColor(action: string): (color: string)
    ensures !IsKnownAction(action) <==> color == GrayBadge
    ensures action == "completed_cohesion" || action == "task_completed" <==> color == "bg-green-100 text-green-800"
  {
    if action == "login" then "bg-blue-100 text-blue-800"
    else if action == "completed_cohesion" then "bg-green-100 text-green-800"
    else if action == "task_completed" then "bg-green-100 text-green-800"
    else if action == "profile_update" then "bg-yellow-100 text-yellow-800"
    else if action == "signup" then "bg-purple-100 text-purple-800"
    else if action == "password_reset" then "bg-orange-100 text-orange-800"
    else GrayBadge
  }

  /** The page's state: the activity list, the search box and the current page number. */
  class ActivityView {
    var activities: seq<Activity>
    var searchTerm: string
    var currentPage: nat

    predicate Valid()
      reads this
    {
      currentPage >= 1
    }

    function Filtered(): seq<Activity>
      reads this
    {
      FilteredActivities(activities, searchTerm)
    }

    function Total(): nat
      reads this
    {
      TotalPages(|Filtered()|)
    }

    /** The rows on screen; empty means the "no results" row shows. */
    function Shown(): seq<Activity>
      reads this
      requires Valid()
    {
      PageOf(Filtered(), currentPage)
    }

    constructor (activities: seq<Activity>)
      ensures Valid()
      ensures this.activities == activities && searchTerm == "" && currentPage == 1
    {
      this.activities := activities;
      searchTerm := "";
      currentPage := 1;
    }

    /** Typing in the search box (or clearing it with the empty term): the page number is kept. */
    method SetSearchTerm(term: string)
      requires Valid()
      modifies this
      ensures Valid()
      ensures searchTerm == term && currentPage == old(currentPage) && activities == old(activities)
      ensures currentPage > Total() ==> Shown() == []
    {
      searchTerm := term;
      PageEmptyIffPastLast(Filtered(), currentPage);
    }

    /** The previous-page button (shown only when there is more than one page). */
    method Previous()
      requires Valid() && Total() > 1
      modifies this
      ensures Valid()
      ensures currentPage == if old(currentPage) - 1 > 1 then old(currentPage) - 1 else 1
      ensures searchTerm == old(searchTerm) && activities == old(activities)
    {
      currentPage := if currentPage - 1 > 1 then currentPage - 1 else 1;
    }

    /** The next-page button (shown only when there is more than one page). */
    method Next()
      requires Valid() && Total() > 1
      modifies this
      ensures Valid() && currentPage <= Total()
      ensures currentPage == if old(currentPage) + 1 < Total() then old(currentPage) + 1 else Total()
      ensures searchTerm == old(searchTerm) && activities == old(activities)
    {
      currentPage := if currentPage + 1 < Total() then currentPage + 1 else Total();
    }

    /** The numbered button for page `i + 1`. */
    method GoTo(i: nat)
      requires Valid() && Total() > 1 && i < Total()
      modifies this
      ensures Valid() && currentPage == i + 1 && Shown() != []
      ensures searchTerm == old(searchTerm) && activities == old(activities)
    {
      currentPage := i + 1;
      PageEmptyIffPastLast(Filtered(), currentPage);
    }
  }
}

=== FILE: admin_users.dfy ===
/**
 * The admin user-management page: a list of users that the create form,
 * the block/unblock buttons and the delete button replace, a case-insensitive
 * search over name and email, and each user's activity history.
 */
module AdminUsers {
  import opened Text
  import opened Lists

  datatype AdminUser = AdminUser(
    id: string,
    name: string,
    email: string,
    createdAt: string,
    status: string,
    lastLogin: string)

  datatype UserActivity = UserActivity(id: string, userId: string, action: string, timestamp: string)

  /** The values the create form submits; `isAdmin` and `password` are accepted but not stored. */
  datatype CreateUserValues = CreateUserValues(name: string, email: string, isAdmin: bool, password: string)

  /**
   * The user `onCreateUser` builds when the list holds `count` users: id is
   * the decimal text of `count + 1`, the status active, no login yet.
   */
  function NewUser(values: CreateUserValues, count: nat, today: string): (u: AdminUser)
    ensures (forall i :: 0 <= i < |u.id| ==> '0' <= u.id[i] <= '9') && DigitsValue(u.id) == count + 1
    ensures u.id != [] && (|u.id| == 1 || u.id[0] != '0')
    ensures u.name == values.name && u.email == values.email && u.createdAt == today
    ensures u.status == "active" && u.lastLogin == "-"
  {
    DecimalRoundTrip(count + 1);
    AdminUser(Decimal(count + 1), values.name, values.email, today, "active", "-")
  }

  /** The list after `toggleUserStatus(userId, newStatus)`. */
  function WithStatus(users: seq<AdminUser>, userId: string, newStatus: string): (r: seq<AdminUser>)
    ensures |r| == |users|
  {
    seq(|users|, i requires 0 <= i < |users| =>
      if users[i].id == userId then users[i].(status := newStatus) else users[i])
  }

  /**
   * Setting a status changes only the status, only of users with that id;
   * setting the same status twice is the same as once.
   */
  lemma WithStatusSpec(users: seq<AdminUser>, userId: string, newStatus: string)
    ensures forall i :: 0 <= i < |users| && users[i].id != userId ==> WithStatus(users, userId, newStatus)[i] == users[i]
    ensures forall i :: 0 <= i < |users| && users[i].id == userId ==>
      WithStatus(users, userId, newStatus)[i] == users[i].(status := newStatus)
    ensures WithStatus(WithStatus(users, userId, newStatus), userId, newStatus) == WithStatus(users, userId, newStatus)
  {
    var once := WithStatus(users, userId, newStatus);
    assert forall i :: 0 <= i < |users| ==> WithStatus(once, userId, newStatus)[i] == once[i];
  }

  function OtherId(userId: string): AdminUser -> bool {
    (u: AdminUser) => u.id != userId
  }

  /** The list after the delete button: `users.filter(u => u.id !== user.id)`. */
  function RemoveUser(users: seq<AdminUser>, userId: string): (r: seq<AdminUser>)
    ensures |r| <= |users|
    ensures forall i :: 0 <= i < |r| ==> r[i].id != userId
  {
    var r := Filter(users, OtherId(userId));
    assert forall i :: 0 <= i < |r| ==> OtherId(userId)(r[i]);
    r
  }

  /** Deleting removes the users with that id and keeps the others in their order. */
  lemma RemoveUserSpec(users: seq<AdminUser>, userId: string)
    ensures forall u :: u in RemoveUser(users, userId) <==> u in users && u.id != userId
    ensures forall a, b :: users == a + b ==> RemoveUser(users, userId) == RemoveUser(a, userId) + RemoveUser(b, userId)
  {
    forall u {
      FilterMembers(users, OtherId(userId), u);
    }
    forall a, b | users == a + b {
      FilterConcat(a, b, OtherId(userId));
    }
  }

  /**
   * The id of a new user is never checked against the list: after deleting
   * user "1" from users "1" and "2", the next user created gets id "2" again.
   */
  lemma NewIdCanRepeat(values: CreateUserValues, today: string, first: AdminUser, second: AdminUser)
    requires first.id == "1" && second.id == "2"
    ensures var remaining := RemoveUser([first, second], "1");
      remaining == [second] && NewUser(values, |remaining|, today).id == second.id
  {
    var remaining := RemoveUser([first, second], "1");
    assert [first, second][1..] == [second];
    assert [second][1..] == [];
    assert Filter([second], OtherId("1")) == [second] + Filter([], OtherId("1"));
    assert remaining == [] + Filter([second], OtherId("1"));
    assert Decimal(2) == [DigitChar(2)];
  }

  /** The search test: the lower-cased term occurs in the lower-cased name or email. */
  function UserMatches(u: AdminUser, term: string): (ok: bool)
    ensures term == "" ==> ok
  {
    ContainsEmpty(Lower(u.name));
    Contains(Lower(u.name), Lower(term)) || Contains(Lower(u.email), Lower(term))
  }

  function MatchesTerm(term: string): AdminUser -> bool {
    (u: AdminUser) => UserMatches(u, term)
  }

  /** `filteredUsers`. */
  function FilteredUsers(users: seq<AdminUser>, term: string): (r: seq<AdminUser>)
    ensures |r| <= |users|
    ensures forall i :: 0 <= i < |r| ==> UserMatches(r[i], term)
  {
    var r := Filter(users, MatchesTerm(term));
    assert forall i :: 0 <= i < |r| ==> MatchesTerm(term)(r[i]);
    r
  }

  /** The search keeps exactly the matching users, in their order; an empty term keeps all. */
  lemma FilteredUsersSpec(users: seq<AdminUser>, term: string)
    ensures forall u :: u in FilteredUsers(users, term) <==> u in users && UserMatches(u, term)
    ensures forall a, b :: users == a + b ==> FilteredUsers(users, term) == FilteredUsers(a, term) + FilteredUsers(b, term)
    ensures term == "" ==> FilteredUsers(users, term) == users
  {
    forall u {
      FilterMembers(users, MatchesTerm(term), u);
    }
    forall a, b | users == a + b {
      FilterConcat(a, b, MatchesTerm(term));
    }
    if term == "" {
      forall i | 0 <= i < |users|
        ensures UserMatches(users[i], term)
      {
        ContainsEmpty(Lower(users[i].name));
      }
      FilterKeepsAll(users, MatchesTerm(term));
    }
  }

  function OfUser(userId: string): UserActivity -> bool {
    (a: UserActivity) => a.userId == userId
  }

  /** `getUserActivities(userId)`. */
  function ActivitiesOf(activities: seq<UserActivity>, userId: string): (r: seq<UserActivity>)
    ensures |r| <= |activities|
    ensures forall i :: 0 <= i < |r| ==> r[i].userId == userId
  {
    var r := Filter(activities, OfUser(userId));
    assert forall i :: 0 <= i < |r| ==> OfUser(userId)(r[i]);
    r
  }

  /** A user's history holds exactly the activities with that user id, in their order. */
  lemma ActivitiesOfSpec(activities: seq<UserActivity>, userId: string)
    ensures forall a :: a in ActivitiesOf(activities, userId) <==> a in activities && a.userId == userId
    ensures forall x, y :: activities == x + y ==>
      ActivitiesOf(activities, userId) == ActivitiesOf(x, userId) + ActivitiesOf(y, userId)
  {
    forall a {
      FilterMembers(activities, OfUser(userId), a);
    }
    forall x, y | activities == x + y {
      FilterConcat(x, y, OfUser(userId));
    }
  }

  /** The page's `users` state and the handlers that replace it. */
  class UsersAdmin {
    var users: seq<AdminUser>
    var activities: seq<UserActivity>
    var searchTerm: string

    constructor (users: seq<AdminUser>, activities: seq<UserActivity>)
      ensures this.users == users && this.activities == activities && searchTerm == ""
    {
      this.users := users;
      this.activities := activities;
      searchTerm := "";
    }

    /** `onCreateUser`: appends one user; the users already there are unchanged. */
    method CreateUser(values: CreateUserValues, today: string)
      modifies this
      ensures users == old(users) + [NewUser(values, |old(users)|, today)]
      ensures activities == old(activities) && searchTerm == old(searchTerm)
    {
      users := users + [NewUser(values, |users|, today)];
    }

    /** `toggleUserStatus`: blocks or unblocks the users with that id. */
    method ToggleUserStatus(userId: string, newStatus: string)
      modifies this
      ensures users == WithStatus(old(users), userId, newStatus)
      ensures activities == old(activities) && searchTerm == old(searchTerm)
    {
      users := WithStatus(users, userId, newStatus);
    }

    /** The inline delete button. */
    method DeleteUser(userId: string)
      modifies this
      ensures users == RemoveUser(old(users), userId)
      ensures activities == old(activities) && searchTerm == old(searchTerm)
    {
      users := RemoveUser(users, userId);
    }

    method SetSearchTerm(term: string)
      modifies this
      ensures searchTerm == term && users == old(users) && activities == old(activities)
    {
      searchTerm := term;
    }
  }
}

=== FILE: ai_chat_context.dfy ===
/**
 * The chat assistant's state: the message list that starts with the
 * therapist system prompt, the open flag, the loading flag, the selected model
 * and the saved API keys. Replies are canned: the first keyword group found in
 * the lower-cased message chooses one of four Thai texts.
 */
module AIChatContext {
  import opened Text

  datatype AIModel = Grok1 | Gemini15Pro | DeepseekCoder | Qwen72b | Gpt4o | Claude3Opus

  /** The keys of the `APIKeys` record. */
  datatype Provider = OpenAI | Anthropic | Google | XAI | DeepSeek | Qwen

  function ModelName(m: AIModel): string {
    match m
    case Grok1 => "grok-1"
    case Gemini15Pro => "gemini-1.5-pro"
    case DeepseekCoder => "deepseek-coder"
    case Qwen72b => "qwen-72b"
    case Gpt4o => "gpt-4o"
    case Claude3Opus => "claude-3-opus"
  }

  function ProviderName(p: Provider): string {
    match p
    case OpenAI => "openai"
    case Anthropic => "anthropic"
    case Google => "google"
    case XAI => "xai"
    case DeepSeek => "deepseek"
    case Qwen => "qwen"
  }

  /** `getProviderForModel`: which saved key a model needs. */
  function ProviderFor(m: AIModel): (p: Provider)
    ensures m == Gpt4o <==> p == OpenAI
    ensures m == Claude3Opus <==> p == Anthropic
    ensures m == Gemini15Pro <==> p == Google
    ensures m == Grok1 <==> p == XAI
    ensures m == DeepseekCoder <==> p == DeepSeek
    ensures m == Qwen72b <==> p == Qwen
  {
    match m
    case Gpt4o => OpenAI
    case Claude3Opus => Anthropic
    case Gemini15Pro => Google
    case Grok1 => XAI
    case DeepseekCoder => DeepSeek
    case Qwen72b => Qwen
  }

  /** The inverse of the mapping: the one model each provider serves. */
  function ModelFor(p: Provider): (m: AIModel) {
    match p
    case OpenAI => Gpt4o
    case Anthropic => Claude3Opus
    case Google => Gemini15Pro
    case XAI => Grok1
    case DeepSeek => DeepseekCoder
    case Qwen => Qwen72b
  }

  /** Every provider serves exactly one model: the mapping is a bijection. */
  lemma ProviderForIsBijective(m: AIModel, p: Provider)
    ensures ModelFor(ProviderFor(m)) == m
    ensures ProviderFor(ModelFor(p)) == p
    ensures ProviderFor(m) == p <==> m == ModelFor(p)
  {
  }

  datatype Role = User | Assistant | System

  datatype ChatMessage = ChatMessage(id: string, role: Role, content: string, timestamp: nat)

  const TherapistPrompt :=
    "คุณคือผู้ช่วยที่เป็นนักจิตวิทยาที่มีความเชี่ยวชาญในการให้คำปรึกษาด้านสุขภาพจิต คุณมีหน้าที่:\n"
    + "1. รับฟังปัญหาและให้คำแนะนำเกี่ยวกับสุขภาพจิตอย่างเอาใจใส่\n"
    + "2. ส่งเสริมการดูแลสุขภาพจิตและการพัฒนาตนเอง\n"
    + "3. สนับสนุนผู้ใช้ในการจัดการกับความเครียด ความวิตกกังวล และสภาวะทางจิตอื่นๆ\n"
    + "4. ให้คำแนะนำเกี่ยวกับเทคนิคการจัดการความเครียดและการดูแลสุขภาพจิต\n"
    + "5. แนะนำแนวทางการสร้างความสมดุลในชีวิต การพักผ่อน และการดูแลตนเอง\n\n"
    + "คุณไม่ใช่นักจิตวิทยาที่มีใบอนุญาตและควรแนะนำให้ผู้ใช้ปรึกษาผู้เชี่ยวชาญด้านสุขภาพจิตในกรณีที่มีความกังวลรุนแรง\n"
    + "ใช้ภาษาที่อ่อนโยน เข้าใจง่าย และเป็นมิตร ให้กำลังใจ และสร้างความหวังให้กับผู้ใช้เสมอ"

  /** The message the list starts with and is reset to. */
  function SystemMessage(now: nat): (m: ChatMessage)
    ensures m.role == System && m.id == "system-1" && m.content == TherapistPrompt && m.timestamp == now
  {
    ChatMessage("system-1", System, TherapistPrompt, now)
  }

  // ---------------------------------------------------------------------
  // The canned replies
  // ---------------------------------------------------------------------

  /** The four canned replies. */
  datatype Reply = StressReply | SleepReply | AnxietyReply | DefaultReply

  function ReplyText(r: Reply): string {
    match r
    case StressReply => StressText
    case SleepReply => SleepText
    case AnxietyReply => AnxietyText
    case DefaultReply => DefaultText
  }

  const StressText := "ฉันเข้าใจว่าคุณกำลังรู้สึกเครียด เป็นเรื่องปกติที่เราทุกคนจะรู้สึกแบบนี้ได้ ลองหายใจลึกๆ และให้เวลากับตัวเองสักครู่ คุณอาจลองทำเทคนิคการหายใจ 4-7-8 โดยหายใจเข้า 4 วินาที กลั้นไว้ 7 วินาที และหายใจออก 8 วินาที ทำซ้ำประมาณ 5 รอบ นี่เป็นเทคนิคที่ช่วยลดความเครียดได้อย่างรวดเร็ว"
  const SleepText := "การนอนหลับเป็นสิ่งสำคัญมากต่อสุขภาพจิต ถ้าคุณมีปัญหาเรื่องการนอน ลองกำหนดเวลาเข้านอนและตื่นนอนให้เป็นเวลาเดียวกันทุกวัน งดใช้อุปกรณ์อิเล็กทรอนิกส์ก่อนนอน 1 ชั่วโมง และสร้างบรรยากาศห้องนอนให้เงียบสงบ มืด และเย็นสบาย"
  const AnxietyText := "ความวิตกกังวลเป็นสิ่งที่หลายคนเผชิญอยู่ ลองฝึกการอยู่กับปัจจุบัน สังเกตสิ่งที่อยู่รอบตัวคุณ 5 อย่างที่คุณเห็น 4 อย่างที่คุณสัมผัสได้ 3 อย่างที่คุณได้ยิน 2 อย่างที่คุณได้กลิ่น และ 1 อย่างที่คุณรู้รส นี่เป็นเทคนิคที่เรียกว่า 5-4-3-2-1 ซึ่งช่วยให้คุณกลับมาอยู่กับปัจจุบันและลดความวิตกกังวลลงได้"
  const DefaultText := "ขอบคุณที่แบ่งปันความรู้สึกของคุณกับฉัน การดูแลสุขภาพจิตเป็นสิ่งสำคัญ คุณอาจลองทำกิจกรรมที่ช่วยผ่อนคลาย เช่น การฝึกสติ การเดินในธรรมชาติ หรือทำกิจกรรมที่คุณชื่นชอบ อย่าลืมว่าการขอความช่วยเหลือเป็นสิ่งที่แสดงถึงความเข้มแข็ง ไม่ใช่ความอ่อนแอ"

  predicate MentionsStress(content: string) {
    Contains(Lower(content), "เครียด") || Contains(Lower(content), "stress")
  }

  predicate MentionsSleep(content: string) {
    Contains(Lower(content), "นอน") || Contains(Lower(content), "sleep")
  }

  predicate MentionsAnxiety(content: string) {
    Contains(Lower(content), "วิตก") || Contains(Lower(content), "กังวล") || Contains(Lower(content), "anxiety")
  }

  /**
   * The reply to a message: the first keyword group it mentions wins, stress
   * before sleep before anxiety, and a message that mentions none gets the
   * default reply.
   */
  function ChooseReply(content: string): (r: Reply)
    ensures r == StressReply <==> MentionsStress(content)
    ensures r == SleepReply <==> !MentionsStress(content) && MentionsSleep(content)
    ensures r == AnxietyReply <==> !MentionsStress(content) && !MentionsSleep(content) && MentionsAnxiety(content)
    ensures r == DefaultReply <==> !MentionsStress(content) && !MentionsSleep(content) && !MentionsAnxiety(content)
  {
    if MentionsStress(content) then StressReply
    else if MentionsSleep(content) then SleepReply
    else if MentionsAnxiety(content) then AnxietyReply
    else DefaultReply
  }

  /** Keyword matching ignores the case of Latin letters. */
  lemma ReplyIgnoresCase(a: string, b: string)
    requires Lower(a) == Lower(b)
    ensures ChooseReply(a) == ChooseReply(b)
  {
  }

  /** A key counts as saved only when it is present and not empty (a JavaScript truthy string). */
  function HasKey(keys: map<Provider, string>, p: Provider): (ok: bool)
    ensures ok ==> p in keys && |keys[p]| > 0
    ensures p !in keys ==> !ok
  {
    p in keys && keys[p] != ""
  }

  /** Saving a non-empty key makes it count, and leaves every other provider as it was. */
  lemma SavedKeyCounts(keys: map<Provider, string>, p: Provider, key: string)
    requires key != ""
    ensures HasKey(keys[p := key], p)
    ensures forall q :: q != p ==> HasKey(keys[p := key], q) == HasKey(keys, q)
  {
  }

  /** The text of the error a send with no key for the selected model raises. */
  function MissingKeyError(m: AIModel): (e: string)
    ensures StartsWith(e, "API key for " + ProviderName(ProviderFor(m)))
  {
    var prefix := "API key for " + ProviderName(ProviderFor(m));
    var e := prefix + " is required for " + ModelName(m);
    assert e[..|prefix|] == prefix;
    e
  }

  /** The user's message as `sendMessage` records it, its id being the send time in decimal. */
  function UserMessage(content: string, now: nat): (m: ChatMessage)
    ensures m.role == User && m.content == content && m.id == Decimal(now) && m.timestamp == now
  {
    ChatMessage(Decimal(now), User, content, now)
  }

  /** The reply recorded when the delay has passed, its id one past the time it is recorded. */
  function AssistantMessage(content: string, later: nat): (m: ChatMessage)
    ensures m.role == Assistant && m.content == ReplyText(ChooseReply(content))
    ensures m.id == Decimal(later + 1) && m.timestamp == later
  {
    ChatMessage(Decimal(later + 1), Assistant, ReplyText(ChooseReply(content)), later)
  }

  /** The user's message and its reply never share an id when the reply comes at or after the send. */
  lemma ReplyIdDiffers(content: string, now: nat, later: nat)
    requires now <= later
    ensures UserMessage(content, now).id != AssistantMessage(content, later).id
  {
    if Decimal(now) == Decimal(later + 1) {
      DecimalInjective(now, later + 1);
    }
  }

  class ChatState {
    var messages: seq<ChatMessage>
    var isOpen: bool
    var isLoading: bool
    var selectedModel: AIModel
    var apiKeys: map<Provider, string>
    /** The descriptions of the error toasts shown so far. */
    var errors: seq<string>

    /** The provider's initial state; the keys are those loaded from storage. */
    constructor (apiKeys: map<Provider, string>, now: nat)
      ensures messages == [SystemMessage(now)]
      ensures !isOpen && !isLoading && selectedModel == Gpt4o
      ensures this.apiKeys == apiKeys && errors == []
    {
      messages := [SystemMessage(now)];
      isOpen := false;
      isLoading := false;
      selectedModel := Gpt4o;
      this.apiKeys := apiKeys;
      errors := [];
    }

    /** `setApiKey`: only the named provider's key changes. */
    method SetApiKey(provider: Provider, key: string)
      modifies this
      ensures apiKeys == old(apiKeys)[provider := key]
      ensures forall p :: p != provider ==> (p in apiKeys <==> p in old(apiKeys))
      ensures forall p :: p != provider && p in apiKeys ==> apiKeys[p] == old(apiKeys)[p]
      ensures messages == old(messages) && isOpen == old(isOpen) && isLoading == old(isLoading)
      ensures selectedModel == old(selectedModel) && errors == old(errors)
    {
      apiKeys := apiKeys[provider := key];
    }

    method SetSelectedModel(model: AIModel)
      modifies this
      ensures selectedModel == model
      ensures messages == old(messages) && isOpen == old(isOpen) && isLoading == old(isLoading)
      ensures apiKeys == old(apiKeys) && errors == old(errors)
    {
      selectedModel := model;
    }

    /** `toggleChat`: flips `isOpen` and nothing else. */
    method ToggleChat()
      modifies this
      ensures isOpen == !old(isOpen)
      ensures messages == old(messages) && isLoading == old(isLoading)
      ensures selectedModel == old(selectedModel) && apiKeys == old(apiKeys) && errors == old(errors)
    {
      isOpen := !isOpen;
    }

    /** `clearMessages`: only the system prompt is left. */
    method ClearMessages(now: nat)
      modifies this
      ensures messages == [SystemMessage(now)]
      ensures |messages| == 1 && messages[0].role == System && messages[0].content == TherapistPrompt
      ensures isOpen == old(isOpen) && isLoading == old(isLoading)
      ensures selectedModel == old(selectedModel) && apiKeys == old(apiKeys) && errors == old(errors)
    {
      messages := [SystemMessage(now)];
    }

    /**
     * `sendMessage`, with the one-second delay before the reply collapsed:
     * blank content changes nothing; otherwise the user's message is appended
     * first, then either the reply follows or, with no key for the selected
     * model's provider, the error is shown and the user's message stays.
     * Either way loading has ended.
     */
    method SendMessage(content: string, now: nat, later: nat)
      modifies this
      ensures IsBlank(content) ==> messages == old(messages) && isLoading == old(isLoading) && errors == old(errors)
      ensures !IsBlank(content) ==> !isLoading
      ensures !IsBlank(content) ==>
        |messages| > |old(messages)| && messages[..|old(messages)| + 1] == old(messages) + [UserMessage(content, now)]
      ensures !IsBlank(content) && HasKey(apiKeys, ProviderFor(selectedModel)) ==>
        messages == old(messages) + [UserMessage(content, now), AssistantMessage(content, later)]
        && errors == old(errors)
      ensures !IsBlank(content) && !HasKey(apiKeys, ProviderFor(selectedModel)) ==>
        messages == old(messages) + [UserMessage(content, now)]
        && errors == old(errors) + [MissingKeyError(selectedModel)]
      ensures isOpen == old(isOpen) && selectedModel == old(selectedModel) && apiKeys == old(apiKeys)
    {
      if IsBlank(content) {
        return;
      }
      ghost var before := messages;
      var userMessage := UserMessage(content, now);
      messages := messages + [userMessage];
      assert messages[..|before| + 1] == before + [userMessage];
      isLoading := true;
      var requiredProvider := ProviderFor(selectedModel);
      if !HasKey(apiKeys, requiredProvider) {
        errors := errors + [MissingKeyError(selectedModel)];
        isLoading := false;
        return;
      }
      var reply := AssistantMessage(content, later);
      messages := messages + [reply];
      assert messages == before + [userMessage, reply];
      assert messages[..|before| + 1] == before + [userMessage];
      isLoading := false;
    }
  }
}

=== FILE: auth_actions.dfy ===
/**
 * The authentication actions hook: mocked sign-in and sign-up rules, sign-out,
 * the two password-recovery steps and the profile update, each one setting
 * `isLoading` while it runs and clearing it at the end, and recording the
 * toasts it shows and the page it navigates to.
 */
module AuthActions {
  import opened Wrappers
  import opened Text
  import opened AuthUtils

  /** How a sign-in or sign-up attempt ends: a user and the page to go to, or the error message shown. */
  datatype Outcome = SignedIn(user: User, destination: string) | Failed(message: string)

  const WrongPassword := "รหัสผ่านไม่ถูกต้อง"
  const BadCredentials := "อีเมลหรือรหัสผ่านไม่ถูกต้อง"
  const MissingFields := "กรุณากรอกข้อมูลให้ครบถ้วน"
  const SignInFailedTitle := "เข้าสู่ระบบล้มเหลว"
  const SignUpFailedTitle := "สมัครสมาชิกล้มเหลว"

  /**
   * The decision `signIn` makes: both fields must be non-empty, and the
   * administrator email only signs in with the administrator password. The
   * user is an administrator exactly for that pair, is named after the part
   * of the email before '@', and administrators land on the user admin page.
   */
  function SignInOutcome(email: string, password: string, now: nat, createdAt: string): (r: Outcome)
    ensures r.SignedIn? <==> email != "" && password != "" && (email == AdminEmail ==> password == AdminPassword)
    ensures r.SignedIn? ==> r.user.isAdmin == Some(IsValidAdmin(email, password))
    ensures r.SignedIn? ==> r.user.email == email && r.user.name == BeforeFirst(email, '@')
    ensures r.SignedIn? ==> r.destination == if IsValidAdmin(email, password) then "/admin/users" else "/dashboard"
    ensures r.Failed? ==> r.message == if email != "" && password != "" then WrongPassword else BadCredentials
  {
    var isAdminCredentials := IsValidAdmin(email, password);
    if email != "" && password != "" then
      var isAdmin := isAdminCredentials;
      if email == AdminEmail && !isAdminCredentials then Failed(WrongPassword)
      else
        SignedIn(CreateMockUser(email, BeforeFirst(email, '@'), isAdmin, now, createdAt),
                 if isAdmin then "/admin/users" else "/dashboard")
    else Failed(BadCredentials)
  }

  /** The decision `signUp` makes: all three fields non-empty; the new user is never an administrator. */
  function SignUpOutcome(email: string, name: string, password: string, now: nat, createdAt: string): (r: Outcome)
    ensures r.SignedIn? <==> email != "" && name != "" && password != ""
    ensures r.SignedIn? ==> r.user.isAdmin == Some(false) && r.user.email == email && r.user.name == name
    ensures r.SignedIn? ==> r.destination == "/dashboard"
    ensures r.Failed? ==> r.message == MissingFields
  {
    if email != "" && name != "" && password != "" then
      SignedIn(CreateMockUser(email, name, false, now, createdAt), "/dashboard")
    else Failed(MissingFields)
  }

  /** The `{ name?, email? }` argument of `updateProfile`. */
  datatype ProfileData = ProfileData(name: Option<string>, email: Option<string>)

  /** `{ ...currentUser, ...data }`: only the given fields change. */
  function Merge(u: User, data: ProfileData): (r: User)
    ensures r.name == data.name.GetOr(u.name) && r.email == data.email.GetOr(u.email)
    ensures r.id == u.id && r.createdAt == u.createdAt && r.isAdmin == u.isAdmin
  {
    u.(name := data.name.GetOr(u.name), email := data.email.GetOr(u.email))
  }

  /** The hook's state, the user it sets, the page it navigates to and the toasts it shows. */
  class AuthSession {
    var user: Option<User>
    var isLoading: bool
    var location: string
    var toasts: seq<Toast>
    const storage: LocalStorage

    constructor (storage: LocalStorage, user: Option<User>, location: string)
      ensures this.storage == storage && this.user == user && this.location == location
      ensures !isLoading && toasts == []
    {
      this.storage := storage;
      this.user := user;
      this.location := location;
      isLoading := false;
      toasts := [];
    }

    /** `signIn`: on success the user is set and stored; on failure nothing but the error toast. */
    method SignIn(email: string, password: string, now: nat, createdAt: string)
      modifies this, storage
      ensures !isLoading
      ensures match SignInOutcome(email, password, now, createdAt)
        case SignedIn(u, destination) =>
          user == Some(u) && storage.GetStoredUser() == Some(u) && location == destination
          && storage.entries == old(storage.entries)[UserKey := UserEntry(u)]
          && toasts == old(toasts) + [AuthToast(Success, Login).value]
        case Failed(message) =>
          user == old(user) && location == old(location) && storage.entries == old(storage.entries)
          && toasts == old(toasts) + [Toast(SignInFailedTitle, message, true)]
    {
      isLoading := true;
      match SignInOutcome(email, password, now, createdAt) {
        case SignedIn(u, destination) =>
          storage.StoreUser(u);
          user := Some(u);
          toasts := toasts + [AuthToast(Success, Login).value];
          location := destination;
        case Failed(message) =>
          toasts := toasts + [Toast(SignInFailedTitle, message, true)];
      }
      isLoading := false;
    }

    /** `signUp`: on success the new user is set and stored; on failure nothing but the error toast. */
    method SignUp(email: string, name: string, password: string, now: nat, createdAt: string)
      modifies this, storage
      ensures !isLoading
      ensures match SignUpOutcome(email, name, password, now, createdAt)
        case SignedIn(u, destination) =>
          user == Some(u) && storage.GetStoredUser() == Some(u) && location == destination
          && storage.entries == old(storage.entries)[UserKey := UserEntry(u)]
          && toasts == old(toasts) + [AuthToast(Success, Signup).value]
        case Failed(message) =>
          user == old(user) && location == old(location) && storage.entries == old(storage.entries)
          && toasts == old(toasts) + [Toast(SignUpFailedTitle, message, true)]
    {
      isLoading := true;
      match SignUpOutcome(email, name, password, now, createdAt) {
        case SignedIn(u, destination) =>
          storage.StoreUser(u);
          user := Some(u);
          toasts := toasts + [AuthToast(Success, Signup).value];
          location := destination;
        case Failed(message) =>
          toasts := toasts + [Toast(SignUpFailedTitle, message, true)];
      }
      isLoading := false;
    }

    /** `signOut`: no user afterwards, in memory or in storage. */
    method SignOut()
      modifies this, storage
      ensures user == None && storage.GetStoredUser() == None
      ensures storage.entries == old(storage.entries) - {UserKey, CohesionKey, TasksKey}
      ensures location == "/" && isLoading == old(isLoading)
      ensures toasts == old(toasts) + [AuthToast(Success, Logout).value]
    {
      storage.RemoveUser();
      user := None;
      location := "/";
      toasts := toasts + [AuthToast(Success, Logout).value];
    }

    /** `forgotPassword`: only a toast and a return to the home page. */
    method ForgotPassword(email: string)
      modifies this
      ensures !isLoading && user == old(user) && location == "/"
      ensures toasts == old(toasts) + [AuthToast(Success, Forgot).value]
    {
      isLoading := true;
      toasts := toasts + [AuthToast(Success, Forgot).value];
      location := "/";
      isLoading := false;
    }

    /** `resetPassword`: only a toast and a move to the login page. */
    method ResetPassword(token: string, password: string)
      modifies this
      ensures !isLoading && user == old(user) && location == "/login"
      ensures toasts == old(toasts) + [AuthToast(Success, Reset).value]
    {
      isLoading := true;
      toasts := toasts + [AuthToast(Success, Reset).value];
      location := "/login";
      isLoading := false;
    }

    /** `updateProfile`: merges into a signed-in user and stores it; a signed-out session stays signed out. */
    method UpdateProfile(data: ProfileData)
      modifies this, storage
      ensures !isLoading && location == old(location)
      ensures old(user).None? ==> user == None && storage.entries == old(storage.entries)
      ensures old(user).Some? ==>
        user == Some(Merge(old(user).value, data)) && storage.GetStoredUser() == user
        && storage.entries == old(storage.entries)[UserKey := UserEntry(Merge(old(user).value, data))]
      ensures toasts == old(toasts) + [AuthToast(Success, Update).value]
    {
      isLoading := true;
      if user.Some? {
        var updatedUser := Merge(user.value, data);
        storage.StoreUser(updatedUser);
        user := Some(updatedUser);
      }
      toasts := toasts + [AuthToast(Success, Update).value];
      isLoading := false;
    }
  }
}

=== FILE: auth_utils.dfy ===
/**
 * The mocked authentication helpers: the fixed administrator credentials,
 * the user record a sign-in or sign-up creates, the browser key-value store
 * that keeps the signed-in user, and the table of toast messages.
 */
module AuthUtils {
  import opened Wrappers
  import opened Text

  /** `User`; `isAdmin` is an optional field. */
  datatype User = User(id: string, email: string, name: string, createdAt: string, isAdmin: Option<bool>)

  const AdminEmail := "pizchy.wachida@gmail.com"
  const AdminPassword := "Pizchy638601"

  const UserKey := "hug-mind-self-user"
  const CohesionKey := "hug-mind-self-cohesion"
  const TasksKey := "hug-mind-self-tasks"

  /**
   * `isValidAdmin`: both the email and the password are the fixed
   * administrator pair. That pair is never empty, so it always passes the
   * sign-in form's emptiness test, and its password meets the six-character
   * minimum the password forms enforce.
   */
  function IsValidAdmin(email: string, password: string): (ok: bool)
    ensures ok ==> email != "" && password != "" && |password| >= 6
    ensures ok ==> '@' in email
  {
    email == AdminEmail && password == AdminPassword
  }

  /**
   * `createMockUser(email, name, isAdmin)` at time `now`: the given name when
   * it is non-empty, otherwise the text of the email before its first '@'.
   */
  function CreateMockUser(email: string, name: string, isAdmin: bool, now: nat, createdAt: string): (u: User)
    ensures u.email == email && u.isAdmin == Some(isAdmin) && u.createdAt == createdAt
    ensures name != "" ==> u.name == name
    ensures name == "" ==> '@' !in u.name && u.name <= email && (|u.name| < |email| ==> email[|u.name|] == '@')
    ensures u.id == "user-" + Decimal(now)
  {
    User("user-" + Decimal(now), email, if name != "" then name else BeforeFirst(email, '@'), createdAt, Some(isAdmin))
  }

  /**
   * What a storage key holds: the JSON of a user (read back as the same user)
   * or some other application data that the model does not look into.
   */
  datatype Entry = UserEntry(user: User) | DataEntry(text: string)

  /** The browser's `localStorage`, as a map from keys to entries. */
  class LocalStorage {
    var entries: map<string, Entry>

    constructor (entries: map<string, Entry>)
      ensures this.entries == entries
    {
      this.entries := entries;
    }

    /** `getStoredUser`: the user under the user key, or none. */
    function GetStoredUser(): (r: Option<User>)
      reads this
      ensures r.Some? ==> UserKey in entries && entries[UserKey] == UserEntry(r.value)
      ensures UserKey !in entries ==> r.None?
    {
      if UserKey in entries && entries[UserKey].UserEntry? then Some(entries[UserKey].user) else None
    }

    /** `storeUser`: writes the user under the user key; reading it back gives the same user. */
    method StoreUser(user: User)
      modifies this
      ensures entries == old(entries)[UserKey := UserEntry(user)]
      ensures GetStoredUser() == Some(user)
      ensures forall k :: k != UserKey ==> (k in entries <==> k in old(entries))
    {
      entries := entries[UserKey := UserEntry(user)];
    }

    /** `removeUser`: forgets the user and both data lists, and no other key. */
    method RemoveUser()
      modifies this
      ensures entries == old(entries) - {UserKey, CohesionKey, TasksKey}
      ensures GetStoredUser() == None
      ensures CohesionKey !in entries && TasksKey !in entries
      ensures forall k :: k !in {UserKey, CohesionKey, TasksKey} ==> (k in entries <==> k in old(entries))
    {
      entries := entries - {UserKey, CohesionKey, TasksKey};
    }
  }

  datatype ToastKind = Success | Error

  datatype AuthAction = Login | Signup | Logout | Reset | Forgot | Update

  /** A toast: title, description, and whether it uses the destructive style. */
  datatype Toast = Toast(title: string, description: string, destructive: bool)

  /** The `messages` table: `None` where the table has no entry. */
  function Message(kind: ToastKind, action: AuthAction): (r: Option<(string, string)>)
    ensures r.None? <==> kind == Error && action == Logout
    ensures r.Some? ==> r.value.0 != "" && r.value.1 != ""
  {
    match (kind, action)
    case (Success, Login) => Some(("เข้าสู่ระบบสำเร็จ", "ยินดีต้อนรับกลับมา! 🌟"))
    case (Success, Signup) => Some(("สมัครสมาชิกสำเร็จ", "ยินดีต้อนรับสู่ Hug Mind Self! 🎉"))
    case (Success, Logout) => Some(("ออกจากระบบสำเร็จ", "ขอบคุณที่ใช้บริการ กลับมาใหม่เร็วๆ นี้นะ! 👋"))
    case (Success, Reset) => Some(("รีเซ็ตรหัสผ่านสำเร็จ", "คุณสามารถเข้าสู่ระบบด้วยรหัสผ่านใหม่ได้แล้ว"))
    case (Success, Forgot) => Some(("ส่งอีเมลรีเซ็ตรหัสผ่านแล้ว", "โปรดตรวจสอบอีเมลของคุณเพื่อรีเซ็ตรหัสผ่าน"))
    case (Success, Update) => Some(("อัปเดตโปรไฟล์สำเร็จ", "ข้อมูลของคุณได้รับการอัปเดตเรียบร้อยแล้ว"))
    case (Error, Login) => Some(("เข้าสู่ระบบล้มเหลว", "อีเมลหรือรหัสผ่านไม่ถูกต้อง"))
    case (Error, Signup) => Some(("สมัครสมาชิกล้มเหลว", "เกิดข้อผิดพลาด โปรดลองอีกครั้ง"))
    case (Error, Reset) => Some(("รีเซ็ตรหัสผ่านล้มเหลว", "เกิดข้อผิดพลาด โปรดลองอีกครั้ง"))
    case (Error, Forgot) => Some(("ส่งอีเมลรีเซ็ตรหัสผ่านล้มเหลว", "เกิดข้อผิดพลาด โปรดลองอีกครั้ง"))
    case (Error, Update) => Some(("อัปเดตโปรไฟล์ล้มเหลว", "เกิดข้อผิดพลาด โปรดลองอีกครั้ง"))
    case (Error, Logout) => None
  }

  /**
   * `showAuthToast(kind, action)`: the table's message, destructive exactly
   * for errors. The pair (error, logout), which the signature admits, has no
   * entry, so the lookup fails (`None`) instead of showing a toast.
   */
  function AuthToast(kind: ToastKind, action: AuthAction): (t: Option<Toast>)
    ensures t.None? <==> kind == Error && action == Logout
    ensures t.Some? ==> t.value.destructive == (kind == Error) && t.value.title != ""
  {
    match Message(kind, action)
    case None => None
    case Some((title, description)) => Some(Toast(title, description, kind == Error))
  }
}

=== FILE: cohesion_context.dfy ===
/**
 * The habit ("cohesion") store and streak engine. A habit carries a log of
 * days; `markDay` inserts or replaces one date's entry, and three readers
 * derive the current streak, the longest streak and the completion rate from
 * the log. Calendar dates are integer day numbers and "today" is a parameter.
 */
module CohesionContext {
  import opened Wrappers
  import opened Streaks
  import Rounding
  import opened Lists

  /** One logged day: its date, whether the habit was done, and an optional note. */
  datatype CohesionDay = CohesionDay(date: int, completed: bool, note: Option<string>)

  datatype Cohesion = Cohesion(
    id: string,
    name: string,
    description: string,
    icon: string,
    color: string,
    target: int,
    days: seq<CohesionDay>,
    createdAt: string)

  /** What `addCohesion` is given: every field except id, days and createdAt. */
  datatype CohesionDraft = CohesionDraft(name: string, description: string, icon: string, color: string, target: int)

  /** A `Partial<CohesionType>`: `Some` for each field present in the update. */
  datatype CohesionPatch = CohesionPatch(
    id: Option<string>,
    name: Option<string>,
    description: Option<string>,
    icon: Option<string>,
    color: Option<string>,
    target: Option<int>,
    days: Option<seq<CohesionDay>>,
    createdAt: Option<string>)

  /** No two entries of a log share a date. */
  predicate DistinctDates(days: seq<CohesionDay>) {
    forall i, j :: 0 <= i < j < |days| ==> days[i].date != days[j].date
  }

  predicate AllLogsDistinct(cohesions: seq<Cohesion>) {
    forall i :: 0 <= i < |cohesions| ==> DistinctDates(cohesions[i].days)
  }

  // ---------------------------------------------------------------------
  // Lookups
  // ---------------------------------------------------------------------

  /** `cohesions.find(c => c.id === id)`: the first habit with that id. */
  function FindById(cohesions: seq<Cohesion>, id: string): (r: Option<Cohesion>)
    ensures r.None? <==> forall i :: 0 <= i < |cohesions| ==> cohesions[i].id != id
    ensures r.Some? ==> r.value.id == id && r.value in cohesions
  {
    if cohesions == [] then None
    else if cohesions[0].id == id then Some(cohesions[0])
    else FindById(cohesions[1..], id)
  }

  /**
   * With repeated ids, `find` gives the first habit with the id: any index
   * holding the id at which no earlier habit has it is the one returned.
   */
  lemma {:induction false} FindByIdIsFirst(cohesions: seq<Cohesion>, id: string, k: nat)
    requires k < |cohesions| && cohesions[k].id == id
    requires forall j :: 0 <= j < k ==> cohesions[j].id != id
    ensures FindById(cohesions, id) == Some(cohesions[k])
  {
    if k > 0 {
      FindByIdIsFirst(cohesions[1..], id, k - 1);
    }
  }

  /** `days.filter(d => d.completed).map(d => d.date)`, in log order. */
  function CompletedDates(days: seq<CohesionDay>): (r: seq<int>)
    ensures |r| <= |days|
  {
    if days == [] then []
    else (if days[0].completed then [days[0].date] else []) + CompletedDates(days[1..])
  }

  /** A date is among the completed dates exactly when some completed entry has it. */
  lemma {:induction false} CompletedDatesMembers(days: seq<CohesionDay>, d: int)
    ensures d in CompletedDates(days) <==> exists i :: 0 <= i < |days| && days[i].completed && days[i].date == d
  {
    if days != [] {
      CompletedDatesMembers(days[1..], d);
      if exists i :: 0 <= i < |days[1..]| && days[1..][i].completed && days[1..][i].date == d {
        var i :| 0 <= i < |days[1..]| && days[1..][i].completed && days[1..][i].date == d;
        assert days[i + 1] == days[1..][i];
      }
      if exists i :: 0 <= i < |days| && days[i].completed && days[i].date == d {
        var i :| 0 <= i < |days| && days[i].completed && days[i].date == d;
        if i > 0 {
          assert days[1..][i - 1] == days[i];
        }
      }
    }
  }

  lemma {:induction false} CompletedDatesConcat(a: seq<CohesionDay>, b: seq<CohesionDay>)
    ensures CompletedDates(a + b) == CompletedDates(a) + CompletedDates(b)
  {
    if a != [] {
      var head := if a[0].completed then [a[0].date] else [];
      assert (a + b)[0] == a[0];
      assert (a + b)[1..] == a[1..] + b;
      CompletedDatesConcat(a[1..], b);
      assert CompletedDates(a + b) == head + CompletedDates(a[1..] + b);
      assert CompletedDates(a) == head + CompletedDates(a[1..]);
      assert head + (CompletedDates(a[1..]) + CompletedDates(b)) == (head + CompletedDates(a[1..])) + CompletedDates(b);
    } else {
      assert a + b == b;
    }
  }

  /** Every entry done: every entry counted. No entry done: nothing counted. */
  lemma {:induction false} CompletedDatesExtremes(days: seq<CohesionDay>)
    ensures (forall i :: 0 <= i < |days| ==> days[i].completed) ==> |CompletedDates(days)| == |days|
    ensures (forall i :: 0 <= i < |days| ==> !days[i].completed) ==> CompletedDates(days) == []
  {
    if days != [] {
      CompletedDatesExtremes(days[1..]);
    }
  }

  /** Nothing is counted exactly when no entry is done. */
  lemma CompletedDatesEmpty(days: seq<CohesionDay>)
    ensures CompletedDates(days) == [] <==> forall i :: 0 <= i < |days| ==> !days[i].completed
  {
    CompletedDatesExtremes(days);
    forall i | 0 <= i < |days| && days[i].completed
      ensures CompletedDates(days) != []
    {
      CompletedDatesMembers(days, days[i].date);
    }
  }

  /** A log with distinct dates has distinct completed dates. */
  lemma {:induction false} CompletedDatesDistinct(days: seq<CohesionDay>)
    requires DistinctDates(days)
    ensures Distinct(CompletedDates(days))
  {
    if days != [] {
      CompletedDatesDistinct(days[1..]);
      var rest := CompletedDates(days[1..]);
      forall k | 0 <= k < |rest|
        ensures rest[k] != days[0].date
      {
        CompletedDatesMembers(days[1..], rest[k]);
        var i :| 0 <= i < |days[1..]| && days[1..][i].completed && days[1..][i].date == rest[k];
        assert days[i + 1].date == rest[k];
      }
    }
  }

  /** Permuting the log keeps the number of completed entries. */
  lemma {:induction false} CompletedCountPermutation(a: seq<CohesionDay>, b: seq<CohesionDay>)
    requires multiset(a) == multiset(b)
    ensures |CompletedDates(a)| == |CompletedDates(b)|
    decreases |a|
  {
    if a == [] {
      assert |b| == |multiset(b)| == 0;
    } else {
      assert a[0] in multiset(b);
      var j :| 0 <= j < |b| && b[j] == a[0];
      var rest := b[..j] + b[j + 1..];
      assert b == b[..j] + [b[j]] + b[j + 1..];
      assert multiset(b) == multiset(b[..j]) + multiset{b[j]} + multiset(b[j + 1..]);
      assert multiset(rest) == multiset(b[..j]) + multiset(b[j + 1..]);
      assert a == [a[0]] + a[1..];
      assert multiset(a) == multiset{a[0]} + multiset(a[1..]);
      assert multiset(a[1..]) == multiset(a) - multiset{a[0]};
      assert multiset(rest) == multiset(b) - multiset{b[j]};
      assert multiset(rest) == multiset(a[1..]);
      CompletedCountPermutation(a[1..], rest);
      CompletedDatesConcat(b[..j], b[j + 1..]);
      CompletedDatesConcat(b[..j], [b[j]]);
      CompletedDatesConcat(b[..j] + [b[j]], b[j + 1..]);
      CompletedDatesConcat([a[0]], a[1..]);
    }
  }

  // ---------------------------------------------------------------------
  // markDay: the per-date upsert
  // ---------------------------------------------------------------------

  /** `days.findIndex(d => d.date === date)`: the first index with that date, or -1. */
  function DateIndex(days: seq<CohesionDay>, date: int): (i: int)
    ensures -1 <= i < |days|
    ensures i >= 0 ==> days[i].date == date
    ensures forall j :: 0 <= j < |days| && (i < 0 || j < i) ==> days[j].date != date
  {
    if days == [] then -1
    else if days[0].date == date then 0
    else
      var k := DateIndex(days[1..], date);
      if k < 0 then -1 else k + 1
  }

  /** The new log after `markDay`: the whole `{date, completed, note}` entry replaces the first entry for that date, or is appended. */
  function Upsert(days: seq<CohesionDay>, date: int, completed: bool, note: Option<string>): (r: seq<CohesionDay>)
    ensures CohesionDay(date, completed, note) in r
    ensures (exists j :: 0 <= j < |days| && days[j].date == date) ==> |r| == |days|
    ensures (forall j :: 0 <= j < |days| ==> days[j].date != date) ==> |r| == |days| + 1 && r[|days|] == CohesionDay(date, completed, note)
    ensures forall j :: 0 <= j < |days| && days[j].date != date ==> r[j] == days[j]
  {
    var entry := CohesionDay(date, completed, note);
    var i := DateIndex(days, date);
    if i >= 0 then assert days[i := entry][i] == entry; days[i := entry] else days + [entry]
  }

  /** A date already logged: its entry is replaced where it stands, and the log keeps its length. */
  lemma UpsertReplacesInPlace(days: seq<CohesionDay>, date: int, completed: bool, note: Option<string>, k: nat)
    requires k < |days| && days[k].date == date
    requires forall j :: 0 <= j < k ==> days[j].date != date
    ensures |Upsert(days, date, completed, note)| == |days|
    ensures Upsert(days, date, completed, note)[k] == CohesionDay(date, completed, note)
    ensures forall j :: 0 <= j < |days| && j != k ==> Upsert(days, date, completed, note)[j] == days[j]
  {
    assert DateIndex(days, date) == k;
  }

  /** A date not yet logged: one entry is appended at the end. */
  lemma UpsertAppends(days: seq<CohesionDay>, date: int, completed: bool, note: Option<string>)
    requires forall j :: 0 <= j < |days| ==> days[j].date != date
    ensures Upsert(days, date, completed, note) == days + [CohesionDay(date, completed, note)]
  {
  }

  /**
   * Afterwards the date's entry is exactly the new triple: an absent note
   * replaces an earlier note rather than keeping it.
   */
  lemma UpsertWritesWholeEntry(days: seq<CohesionDay>, date: int, completed: bool, note: Option<string>)
    ensures DateIndex(Upsert(days, date, completed, note), date) >= 0
    ensures var r := Upsert(days, date, completed, note);
      r[DateIndex(r, date)] == CohesionDay(date, completed, note)
  {
    var r := Upsert(days, date, completed, note);
    var i := DateIndex(days, date);
    var k := if i >= 0 then i else |days|;
    assert r[k].date == date;
    assert forall j :: 0 <= j < k ==> r[j].date != date;
    assert DateIndex(r, date) == k;
  }

  /** Distinct dates stay distinct. */
  lemma UpsertKeepsDistinct(days: seq<CohesionDay>, date: int, completed: bool, note: Option<string>)
    requires DistinctDates(days)
    ensures DistinctDates(Upsert(days, date, completed, note))
  {
  }

  /** Marking the same day twice with the same arguments changes nothing the second time. */
  lemma UpsertIdempotent(days: seq<CohesionDay>, date: int, completed: bool, note: Option<string>)
    ensures Upsert(Upsert(days, date, completed, note), date, completed, note) == Upsert(days, date, completed, note)
  {
    var r := Upsert(days, date, completed, note);
    var i := DateIndex(days, date);
    var k := if i >= 0 then i else |days|;
    assert r[k].date == date;
    assert forall j :: 0 <= j < k ==> r[j].date != date;
    assert DateIndex(r, date) == k;
    assert r[k := CohesionDay(date, completed, note)] == r;
  }

  /** `markDay` over the whole list: only habits with the id get the new log. */
  function MarkDayIn(cohesions: seq<Cohesion>, cohesionId: string, date: int, completed: bool, note: Option<string>): (r: seq<Cohesion>)
    ensures |r| == |cohesions|
  {
    seq(|cohesions|, i requires 0 <= i < |cohesions| =>
      if cohesions[i].id == cohesionId then cohesions[i].(days := Upsert(cohesions[i].days, date, completed, note))
      else cohesions[i])
  }

  /** Habits with another id are untouched; a matching habit changes in its log only. */
  lemma MarkDayOnlyMatching(cohesions: seq<Cohesion>, cohesionId: string, date: int, completed: bool, note: Option<string>)
    ensures forall i :: 0 <= i < |cohesions| && cohesions[i].id != cohesionId ==>
      MarkDayIn(cohesions, cohesionId, date, completed, note)[i] == cohesions[i]
    ensures forall i :: 0 <= i < |cohesions| && cohesions[i].id == cohesionId ==>
      var c := MarkDayIn(cohesions, cohesionId, date, completed, note)[i];
      c == cohesions[i].(days := c.days) && c.days == Upsert(cohesions[i].days, date, completed, note)
    ensures (forall i :: 0 <= i < |cohesions| ==> cohesions[i].id != cohesionId) ==>
      MarkDayIn(cohesions, cohesionId, date, completed, note) == cohesions
  {
  }

  lemma MarkDayKeepsDistinct(cohesions: seq<Cohesion>, cohesionId: string, date: int, completed: bool, note: Option<string>)
    requires AllLogsDistinct(cohesions)
    ensures AllLogsDistinct(MarkDayIn(cohesions, cohesionId, date, completed, note))
  {
    forall i | 0 <= i < |cohesions| {
      UpsertKeepsDistinct(cohesions[i].days, date, completed, note);
    }
  }

  lemma MarkDayIdempotent(cohesions: seq<Cohesion>, cohesionId: string, date: int, completed: bool, note: Option<string>)
    ensures var once := MarkDayIn(cohesions, cohesionId, date, completed, note);
      MarkDayIn(once, cohesionId, date, completed, note) == once
  {
    var once := MarkDayIn(cohesions, cohesionId, date, completed, note);
    forall i | 0 <= i < |cohesions| && cohesions[i].id == cohesionId {
      UpsertIdempotent(cohesions[i].days, date, completed, note);
    }
    assert MarkDayIn(once, cohesionId, date, completed, note) == once;
  }

  // ---------------------------------------------------------------------
  // addCohesion, updateCohesion, deleteCohesion
  // ---------------------------------------------------------------------

  /** The habit `addCohesion` builds: the draft's fields, the given id and time, and an empty log. */
  function NewCohesion(draft: CohesionDraft, id: string, createdAt: string): (c: Cohesion)
    ensures c.id == id && c.createdAt == createdAt && c.days == []
    ensures c.name == draft.name && c.description == draft.description && c.icon == draft.icon
    ensures c.color == draft.color && c.target == draft.target
  {
    Cohesion(id, draft.name, draft.description, draft.icon, draft.color, draft.target, [], createdAt)
  }

  /** `{ ...c, ...patch }`: every field present in the patch overrides the habit's own. */
  function ApplyPatch(c: Cohesion, patch: CohesionPatch): (r: Cohesion)
    ensures Overrides(c, patch, r)
  {
    Cohesion(
      patch.id.GetOr(c.id),
      patch.name.GetOr(c.name),
      patch.description.GetOr(c.description),
      patch.icon.GetOr(c.icon),
      patch.color.GetOr(c.color),
      patch.target.GetOr(c.target),
      patch.days.GetOr(c.days),
      patch.createdAt.GetOr(c.createdAt))
  }

  /**
   * `r` is `c` with every field the patch carries overwritten by the patch's
   * value and every other field kept.
   */
  predicate Overrides(c: Cohesion, patch: CohesionPatch, r: Cohesion) {
    (patch.id.Some? ==> r.id == patch.id.value) && (patch.id.None? ==> r.id == c.id) &&
    (patch.name.Some? ==> r.name == patch.name.value) && (patch.name.None? ==> r.name == c.name) &&
    (patch.description.Some? ==> r.description == patch.description.value) && (patch.description.None? ==> r.description == c.description) &&
    (patch.icon.Some? ==> r.icon == patch.icon.value) && (patch.icon.None? ==> r.icon == c.icon) &&
    (patch.color.Some? ==> r.color == patch.color.value) && (patch.color.None? ==> r.color == c.color) &&
    (patch.target.Some? ==> r.target == patch.target.value) && (patch.target.None? ==> r.target == c.target) &&
    (patch.days.Some? ==> r.days == patch.days.value) && (patch.days.None? ==> r.days == c.days) &&
    (patch.createdAt.Some? ==> r.createdAt == patch.createdAt.value) && (patch.createdAt.None? ==> r.createdAt == c.createdAt)
  }

  /** `updateCohesion` over the whole list. */
  function UpdateIn(cohesions: seq<Cohesion>, id: string, patch: CohesionPatch): (r: seq<Cohesion>)
    ensures |r| == |cohesions|
  {
    seq(|cohesions|, i requires 0 <= i < |cohesions| =>
      if cohesions[i].id == id then ApplyPatch(cohesions[i], patch) else cohesions[i])
  }

  /**
   * An update touches only habits with the id; on those it overwrites every
   * field the patch carries and keeps every other field; with no matching
   * habit the list is unchanged.
   */
  lemma UpdateOnlyMatching(cohesions: seq<Cohesion>, id: string, patch: CohesionPatch)
    ensures forall i :: 0 <= i < |cohesions| && cohesions[i].id != id ==> UpdateIn(cohesions, id, patch)[i] == cohesions[i]
    ensures forall i :: 0 <= i < |cohesions| && cohesions[i].id == id ==>
      Overrides(cohesions[i], patch, UpdateIn(cohesions, id, patch)[i])
    ensures (forall i :: 0 <= i < |cohesions| ==> cohesions[i].id != id) ==> UpdateIn(cohesions, id, patch) == cohesions
  {
  }

  /** `cohesions.filter(c => c.id !== id)`. */
  function RemoveById(cohesions: seq<Cohesion>, id: string): (r: seq<Cohesion>)
    ensures |r| <= |cohesions|
    ensures forall i :: 0 <= i < |r| ==> r[i].id != id
  {
    var r := Filter(cohesions, OtherId(id));
    assert forall i :: 0 <= i < |r| ==> OtherId(id)(r[i]);
    r
  }

  /** The test `c => c.id !== id`. */
  function OtherId(id: string): Cohesion -> bool {
    (c: Cohesion) => c.id != id
  }

  /**
   * Deleting removes every habit with the id and keeps the others in their
   * order; with no habit of that id it changes nothing.
   */
  lemma RemoveByIdSpec(cohesions: seq<Cohesion>, id: string)
    ensures forall c :: c in RemoveById(cohesions, id) <==> c in cohesions && c.id != id
    ensures forall a, b :: cohesions == a + b ==> RemoveById(cohesions, id) == RemoveById(a, id) + RemoveById(b, id)
    ensures (forall i :: 0 <= i < |cohesions| ==> cohesions[i].id != id) ==> RemoveById(cohesions, id) == cohesions
  {
    forall c {
      FilterMembers(cohesions, OtherId(id), c);
    }
    forall a, b | cohesions == a + b {
      FilterConcat(a, b, OtherId(id));
    }
    if forall i :: 0 <= i < |cohesions| ==> cohesions[i].id != id {
      FilterKeepsAll(cohesions, OtherId(id));
    }
  }

  /** Deleting habits keeps every remaining log free of repeated dates. */
  lemma RemoveKeepsDistinct(cohesions: seq<Cohesion>, id: string)
    requires AllLogsDistinct(cohesions)
    ensures AllLogsDistinct(RemoveById(cohesions, id))
  {
    var r := RemoveById(cohesions, id);
    forall i | 0 <= i < |r|
      ensures DistinctDates(r[i].days)
    {
      FilterMembers(cohesions, OtherId(id), r[i]);
      var j :| 0 <= j < |cohesions| && cohesions[j] == r[i];
    }
  }

  /**
   * An update keeps every log free of repeated dates unless its patch brings
   * a log that already repeats one.
   */
  lemma UpdateKeepsDistinct(cohesions: seq<Cohesion>, id: string, patch: CohesionPatch)
    requires AllLogsDistinct(cohesions)
    requires patch.days.Some? ==> DistinctDates(patch.days.value)
    ensures AllLogsDistinct(UpdateIn(cohesions, id, patch))
  {
    UpdateOnlyMatching(cohesions, id, patch);
  }

  // ---------------------------------------------------------------------
  // The readers: current streak, longest streak, completion rate
  // ---------------------------------------------------------------------

  /** `d` is the newest of the dates. */
  predicate IsLatest(dates: seq<int>, d: int) {
    d in dates && forall x :: x in dates ==> x <= d
  }

  /** Every non-empty list of dates has a latest one. */
  lemma LatestOf(dates: seq<int>) returns (latest: int)
    requires |dates| > 0
    ensures IsLatest(dates, latest)
  {
    var s := SortDescending(dates);
    assert |s| == |multiset(s)| == |multiset(dates)| == |dates|;
    latest := s[0];
    SortSameMembers(dates, latest);
    forall x | x in dates
      ensures x <= latest
    {
      SortSameMembers(dates, x);
      var k :| 0 <= k < |s| && s[k] == x;
    }
  }

  /** The head of the newest-first order is the latest completed date. */
  lemma SortedHeadIsLatest(dates: seq<int>, latest: int)
    requires IsLatest(dates, latest)
    ensures |SortDescending(dates)| > 0 && SortDescending(dates)[0] == latest
  {
    var s := SortDescending(dates);
    assert |s| == |multiset(s)| == |multiset(dates)| == |dates|;
    SortSameMembers(dates, s[0]);
    SortSameMembers(dates, latest);
  }

  /**
   * The current streak over the completed dates: 0 when there are none or the
   * newest is neither today nor yesterday, else the length of the walk back
   * from the newest date in one-day steps.
   */
  function CurrentStreakOfDates(done: seq<int>, today: int): (n: nat)
    ensures n <= |done|
    ensures |done| == 0 ==> n == 0
  {
    var sortedDays := SortDescending(done);
    assert |sortedDays| == |multiset(sortedDays)| == |multiset(done)| == |done|;
    if |sortedDays| == 0 then 0
    else if sortedDays[0] != today && sortedDays[0] != today - 1 then 0
    else RunFrom(sortedDays, 0)
  }

  /** The current streak of one log. */
  function CurrentStreakOf(days: seq<CohesionDay>, today: int): (n: nat)
    ensures n <= |days|
    ensures (forall i :: 0 <= i < |days| ==> !days[i].completed) ==> n == 0
  {
    CompletedDatesExtremes(days);
    CurrentStreakOfDates(CompletedDates(days), today)
  }

  /** `getCurrentStreak(id)`: 0 for an unknown id. */
  function CurrentStreak(cohesions: seq<Cohesion>, cohesionId: string, today: int): (n: nat)
    ensures (forall i :: 0 <= i < |cohesions| ==> cohesions[i].id != cohesionId) ==> n == 0
    ensures forall i :: 0 <= i < |cohesions| && cohesions[i].id == cohesionId ==> n <= |FindById(cohesions, cohesionId).value.days|
  {
    match FindById(cohesions, cohesionId)
    case None => 0
    case Some(c) => CurrentStreakOf(c.days, today)
  }

  /** With something completed, the current streak is 0 exactly when the latest completed date is neither today nor yesterday. */
  lemma CurrentStreakCases(done: seq<int>, today: int, latest: int)
    requires IsLatest(done, latest)
    ensures CurrentStreakOfDates(done, today) == 0 <==> latest != today && latest != today - 1
  {
    SortedHeadIsLatest(done, latest);
  }

  /**
   * With distinct dates, a non-zero current streak `n` means: the `n` days
   * ending at the latest completed date are all completed, and the day before
   * them is not.
   */
  lemma CurrentStreakIsRun(done: seq<int>, today: int, latest: int)
    requires Distinct(done) && IsLatest(done, latest)
    requires CurrentStreakOfDates(done, today) > 0
    ensures var n := CurrentStreakOfDates(done, today);
      Covers(done, latest - n + 1, latest + 1) && latest - n !in done
  {
    HeadRunOfSorted(done, today, latest, SortDescending(done));
  }

  lemma HeadRunOfSorted(done: seq<int>, today: int, latest: int, sortedDays: seq<int>)
    requires Distinct(done) && IsLatest(done, latest)
    requires sortedDays == SortDescending(done)
    requires CurrentStreakOfDates(done, today) > 0
    ensures var n := CurrentStreakOfDates(done, today);
      Covers(done, latest - n + 1, latest + 1) && latest - n !in done
  {
    SortedHeadIsLatest(done, latest);
    NewestRunCovers(done, sortedDays);
  }

  /** Two orderings of the same dates cover the same blocks of days. */
  lemma CoversPermutation(s: seq<int>, t: seq<int>, lo: int, hi: int)
    requires multiset(s) == multiset(t)
    requires Covers(s, lo, hi)
    ensures Covers(t, lo, hi)
  {
    forall d | lo <= d < hi
      ensures d in t
    {
      assert d in s;
      assert d in multiset(s);
    }
  }

  /** Two orderings of the same dates lack the same days. */
  lemma AbsentPermutation(s: seq<int>, t: seq<int>, x: int)
    requires multiset(s) == multiset(t)
    requires x !in s
    ensures x !in t
  {
    assert x !in multiset(s);
  }

  /** The walk from the newest date, read back on the unsorted dates. */
  lemma NewestRunCovers(done: seq<int>, s: seq<int>)
    requires |done| > 0 && Distinct(done)
    requires s == SortDescending(done)
    ensures |s| > 0 && Covers(done, s[0] - RunFrom(s, 0) + 1, s[0] + 1) && s[0] - RunFrom(s, 0) !in done
  {
    assert |s| == |multiset(s)| == |multiset(done)| == |done|;
    SortKeepsDistinct(done);
    HeadRunReadBack(done, s);
  }

  lemma HeadRunReadBack(done: seq<int>, s: seq<int>)
    requires |s| > 0 && Descending(s) && Distinct(s) && multiset(s) == multiset(done)
    ensures Covers(done, s[0] - RunFrom(s, 0) + 1, s[0] + 1) && s[0] - RunFrom(s, 0) !in done
  {
    HeadRunIsMaximal(s);
    CoversPermutation(s, done, s[0] - RunFrom(s, 0) + 1, s[0] + 1);
    AbsentPermutation(s, done, s[0] - RunFrom(s, 0));
  }

  /** The longest streak over the completed dates, as the oldest-first pass computes it: 0 exactly when there are none. */
  function LongestStreakOfDates(done: seq<int>): (n: nat)
    ensures n <= |done|
    ensures n == 0 <==> |done| == 0
  {
    var sortedDays := SortAscending(done);
    assert |sortedDays| == |multiset(sortedDays)| == |multiset(done)| == |done|;
    LongestRun(sortedDays)
  }

  /** The longest streak of one log. */
  function LongestStreakOf(days: seq<CohesionDay>): (n: nat)
    ensures n <= |days|
    ensures n == 0 <==> forall i :: 0 <= i < |days| ==> !days[i].completed
  {
    CompletedDatesExtremes(days);
    CompletedDatesEmpty(days);
    LongestStreakOfDates(CompletedDates(days))
  }

  /** `getLongestStreak(id)`: 0 for an unknown id. */
  function LongestStreak(cohesions: seq<Cohesion>, cohesionId: string): (n: nat)
    ensures (forall i :: 0 <= i < |cohesions| ==> cohesions[i].id != cohesionId) ==> n == 0
    ensures FindById(cohesions, cohesionId).Some? ==>
      (n == 0 <==> forall i :: 0 <= i < |FindById(cohesions, cohesionId).value.days| ==> !FindById(cohesions, cohesionId).value.days[i].completed)
  {
    match FindById(cohesions, cohesionId)
    case None => 0
    case Some(c) =>
      assert c == FindById(cohesions, cohesionId).value;
      LongestStreakOf(c.days)
  }

  /**
   * With distinct dates the longest streak is the length of the longest block
   * of consecutive completed days: no block is longer, and some block ending
   * at a completed date is that long.
   */
  lemma LongestStreakIsLongestBlock(done: seq<int>, lo: int, hi: int)
    requires Distinct(done)
    requires lo < hi && Covers(done, lo, hi)
    ensures hi - lo <= LongestStreakOfDates(done)
    ensures exists i :: 0 <= i < |done| && Covers(done, done[i] - LongestStreakOfDates(done) + 1, done[i] + 1)
  {
    SortKeepsDistinct(done);
    LongestRunReadBack(done, SortAscending(done), lo, hi);
  }

  lemma LongestRunReadBack(done: seq<int>, s: seq<int>, lo: int, hi: int)
    requires Ascending(s) && Distinct(s) && multiset(s) == multiset(done)
    requires lo < hi && Covers(done, lo, hi)
    ensures hi - lo <= LongestRun(s)
    ensures exists i :: 0 <= i < |done| && Covers(done, done[i] - LongestRun(s) + 1, done[i] + 1)
  {
    CoversPermutation(done, s, lo, hi);
    assert hi - 1 in s;
    LongestRunIsMaximal(s, lo, hi);
    var n := LongestRun(s);
    var i :| 0 <= i < |s| && Covers(s, s[i] - n + 1, s[i] + 1);
    assert s[i] in multiset(done);
    var k :| 0 <= k < |done| && done[k] == s[i];
    CoversPermutation(s, done, done[k] - n + 1, done[k] + 1);
  }

  /** With distinct dates the current streak never exceeds the longest streak. */
  lemma CurrentAtMostLongest(done: seq<int>, today: int)
    requires Distinct(done)
    ensures CurrentStreakOfDates(done, today) <= LongestStreakOfDates(done)
  {
    var n := CurrentStreakOfDates(done, today);
    if n > 0 {
      var latest := LatestOf(done);
      CurrentStreakIsRun(done, today, latest);
      LongestStreakIsLongestBlock(done, latest - n + 1, latest + 1);
    }
  }

  /** The completion rate of one log: completed entries over logged entries, as a rounded percentage. */
  function CompletionRateOf(days: seq<CohesionDay>): (rate: nat)
    ensures rate <= 100
  {
    if |days| > 0 then
      Rounding.RoundedPercentBounds(|CompletedDates(days)|, |days|);
      Rounding.RoundedPercent(|CompletedDates(days)|, |days|)
    else 0
  }

  /** `getCompletionRate(id)`: 0 for an unknown id or an empty log. */
  function CompletionRate(cohesions: seq<Cohesion>, cohesionId: string): (rate: nat)
    ensures rate <= 100
    ensures (forall i :: 0 <= i < |cohesions| ==> cohesions[i].id != cohesionId) ==> rate == 0
    ensures FindById(cohesions, cohesionId).Some? && FindById(cohesions, cohesionId).value.days == [] ==> rate == 0
  {
    match FindById(cohesions, cohesionId)
    case None => 0
    case Some(c) => CompletionRateOf(c.days)
  }

  /** 100 when every logged day is completed, 0 when none is (or nothing is logged). */
  lemma CompletionRateExtremes(days: seq<CohesionDay>)
    ensures |days| > 0 && (forall i :: 0 <= i < |days| ==> days[i].completed) ==> CompletionRateOf(days) == 100
    ensures (forall i :: 0 <= i < |days| ==> !days[i].completed) ==> CompletionRateOf(days) == 0
  {
    CompletedDatesExtremes(days);
    if |days| > 0 {
      Rounding.RoundedPercentExtremes(|days|);
    }
  }

  /** The order of the log does not matter to the completion rate. */
  lemma CompletionRateOrderFree(a: seq<CohesionDay>, b: seq<CohesionDay>)
    requires multiset(a) == multiset(b)
    ensures CompletionRateOf(a) == CompletionRateOf(b)
  {
    CompletedCountPermutation(a, b);
    assert |a| == |multiset(a)| == |multiset(b)| == |b|;
  }

  /** The `getCurrentStreak` loop: count back from the newest completed date while each step is one day. */
  method GetCurrentStreak(cohesions: seq<Cohesion>, cohesionId: string, today: int) returns (streak: nat)
    ensures streak == CurrentStreak(cohesions, cohesionId, today)
  {
    var cohesion := FindById(cohesions, cohesionId);
    if cohesion.None? {
      return 0;
    }
    var done := CompletedDates(cohesion.value.days);
    var sortedDays := SortDescending(done);
    ghost var spec := CurrentStreakOfDates(done, today);
    assert CurrentStreak(cohesions, cohesionId, today) == CurrentStreakOf(cohesion.value.days, today) == spec;
    if |sortedDays| == 0 {
      return 0;
    }
    var mostRecentDate := sortedDays[0];
    if mostRecentDate != today && mostRecentDate != today - 1 {
      return 0;
    }
    assert spec == RunFrom(sortedDays, 0);
    streak := 1;
    var i := 0;
    while i < |sortedDays| - 1
      invariant 0 <= i <= |sortedDays| - 1
      invariant streak == i + 1
      invariant RunFrom(sortedDays, 0) == i + RunFrom(sortedDays, i)
    {
      var diffDays := sortedDays[i] - sortedDays[i + 1];
      if diffDays == 1 {
        streak := streak + 1;
      } else {
        break;
      }
      i := i + 1;
    }
  }

  /** The `getLongestStreak` loop: one oldest-first pass keeping the current and the longest run. */
  method GetLongestStreak(cohesions: seq<Cohesion>, cohesionId: string) returns (longest: nat)
    ensures longest == LongestStreak(cohesions, cohesionId)
  {
    var cohesion := FindById(cohesions, cohesionId);
    if cohesion.None? {
      return 0;
    }
    var sortedDays := SortAscending(CompletedDates(cohesion.value.days));
    assert LongestStreak(cohesions, cohesionId) == LongestRun(sortedDays);
    if |sortedDays| == 0 {
      return 0;
    }
    var currentStreak := 1;
    var longestStreak := 1;
    for i := 1 to |sortedDays|
      invariant currentStreak == RunEndingAt(sortedDays, i - 1)
      invariant longestStreak == BestRunUpTo(sortedDays, i - 1)
    {
      var diffDays := sortedDays[i] - sortedDays[i - 1];
      if diffDays == 1 {
        currentStreak := currentStreak + 1;
        longestStreak := if longestStreak > currentStreak then longestStreak else currentStreak;
      } else if diffDays > 1 {
        currentStreak := 1;
      }
      assert currentStreak == RunEndingAt(sortedDays, i);
    }
    return longestStreak;
  }

  /** The provider's `cohesions` state and the operations that replace it. */
  class CohesionStore {
    var cohesions: seq<Cohesion>

    /** The store holding the list loaded at start-up. */
    constructor (loaded: seq<Cohesion>)
      ensures cohesions == loaded
    {
      cohesions := loaded;
    }

    /** Appends one habit with an empty log; the habits already there are unchanged. */
    method AddCohesion(draft: CohesionDraft, id: string, createdAt: string)
      modifies this
      ensures |cohesions| == |old(cohesions)| + 1
      ensures cohesions[..|old(cohesions)|] == old(cohesions)
      ensures cohesions[|old(cohesions)|] == NewCohesion(draft, id, createdAt)
      ensures cohesions[|old(cohesions)|].days == []
      ensures AllLogsDistinct(old(cohesions)) ==> AllLogsDistinct(cohesions)
    {
      cohesions := cohesions + [NewCohesion(draft, id, createdAt)];
    }

    /**
     * Applies the patch to every habit with the id. Logs keep distinct dates
     * unless the patch itself brings a log with a repeated date.
     */
    method UpdateCohesion(id: string, patch: CohesionPatch)
      modifies this
      ensures cohesions == UpdateIn(old(cohesions), id, patch)
      ensures |cohesions| == |old(cohesions)|
      ensures AllLogsDistinct(old(cohesions)) && (patch.days.Some? ==> DistinctDates(patch.days.value)) ==>
        AllLogsDistinct(cohesions)
    {
      if AllLogsDistinct(cohesions) && (patch.days.Some? ==> DistinctDates(patch.days.value)) {
        UpdateKeepsDistinct(cohesions, id, patch);
      }
      cohesions := UpdateIn(cohesions, id, patch);
    }

    /** Removes every habit with the id, keeping the others. */
    method DeleteCohesion(id: string)
      modifies this
      ensures cohesions == RemoveById(old(cohesions), id)
      ensures AllLogsDistinct(old(cohesions)) ==> AllLogsDistinct(cohesions)
    {
      if AllLogsDistinct(cohesions) {
        RemoveKeepsDistinct(cohesions, id);
      }
      cohesions := RemoveById(cohesions, id);
    }

    /** Upserts one date's entry in the log of the habit with the id; logs keep distinct dates. */
    method MarkDay(cohesionId: string, date: int, completed: bool, note: Option<string>)
      modifies this
      ensures cohesions == MarkDayIn(old(cohesions), cohesionId, date, completed, note)
      ensures AllLogsDistinct(old(cohesions)) ==> AllLogsDistinct(cohesions)
    {
      if AllLogsDistinct(cohesions) {
        MarkDayKeepsDistinct(cohesions, cohesionId, date, completed, note);
      }
      cohesions := MarkDayIn(cohesions, cohesionId, date, completed, note);
    }
  }
}

=== FILE: dashboard.dfy ===
/**
 * The dashboard's figures: today's task tally and its rounded percentage, and
 * the habit card that previews the first three habits. The best-streak figure
 * is the statistics page's highest streak, `Stats.HighestStreak`.
 */
module Dashboard {
  import opened Lists
  import opened Rounding
  import opened TasksContext
  import opened CohesionContext

  function IsCompleted(): Task -> bool {
    (t: Task) => t.completed
  }

  /** `tasks.filter(task => task.completed).length`: never more than the number of tasks. */
  function CompletedTaskCount(tasks: seq<Task>): (n: nat)
    ensures n <= |tasks|
  {
    |Filter(tasks, IsCompleted())|
  }

  /** The tally reaches the number of tasks exactly when all are done, and 0 exactly when none is. */
  lemma CompletedTaskCountExtremes(tasks: seq<Task>)
    ensures CompletedTaskCount(tasks) == |tasks| <==> forall i :: 0 <= i < |tasks| ==> tasks[i].completed
    ensures CompletedTaskCount(tasks) == 0 <==> forall i :: 0 <= i < |tasks| ==> !tasks[i].completed
  {
    FilterCount(tasks, IsCompleted());
  }

  /** `completionPercentage`: 0 with no tasks, otherwise the rounded share of completed tasks. */
  function CompletionPercentage(tasks: seq<Task>): (p: nat)
    ensures p <= 100
    ensures tasks == [] ==> p == 0
    ensures tasks != [] ==> (2 * p - 1) * |tasks| <= 200 * CompletedTaskCount(tasks) < (2 * p + 1) * |tasks|
  {
    if |tasks| > 0 then
      RoundedPercentBounds(CompletedTaskCount(tasks), |tasks|);
      RoundedPercent(CompletedTaskCount(tasks), |tasks|)
    else 0
  }

  /**
   * 100 when every task is done and 0 when none is. Because of rounding, 100
   * also shows when at most one task in two hundred is still open, and 0 when
   * fewer than one in two hundred is done.
   */
  lemma CompletionPercentageExtremes(tasks: seq<Task>)
    ensures tasks != [] && (forall i :: 0 <= i < |tasks| ==> tasks[i].completed) ==> CompletionPercentage(tasks) == 100
    ensures (forall i :: 0 <= i < |tasks| ==> !tasks[i].completed) ==> CompletionPercentage(tasks) == 0
    ensures CompletionPercentage(tasks) == 100 <==> tasks != [] && 200 * (|tasks| - CompletedTaskCount(tasks)) <= |tasks|
  {
    CompletedTaskCountExtremes(tasks);
    if |tasks| > 0 {
      RoundedPercentExtremes(|tasks|);
      RoundedPercentBounds(CompletedTaskCount(tasks), |tasks|);
    }
  }

  /** `cohesions.slice(0, 3)`: the first three habits, or all of them when there are fewer, in list order. */
  function HabitPreview(cohesions: seq<Cohesion>): (preview: seq<Cohesion>)
    ensures |preview| == if |cohesions| < 3 then |cohesions| else 3
    ensures forall i :: 0 <= i < |preview| ==> preview[i] == cohesions[i]
  {
    Slice(cohesions, 0, 3)
  }
}

=== FILE: lists.dfy ===
/**
 * `Array.prototype.filter` over immutable lists, with the facts every store
 * in the application relies on when it deletes or searches: the kept elements
 * are exactly those the test accepts, and they keep their order.
 */
module Lists {

  /** `s.filter(keep)`: the elements `keep` accepts, in their order. */
  function Filter<T>(s: seq<T>, keep: T -> bool): (r: seq<T>)
    ensures |r| <= |s|
    ensures forall i :: 0 <= i < |r| ==> keep(r[i])
  {
    if s == [] then []
    else (if keep(s[0]) then [s[0]] else []) + Filter(s[1..], keep)
  }

  /** An element is kept exactly when it was there and the test accepts it. */
  lemma {:induction false} FilterMembers<T>(s: seq<T>, keep: T -> bool, x: T)
    ensures x in Filter(s, keep) <==> x in s && keep(x)
  {
    if s != [] {
      FilterMembers(s[1..], keep, x);
      assert s == [s[0]] + s[1..];
    }
  }

  /** Filtering distributes over concatenation: what is kept keeps its order. */
  lemma {:induction false} FilterConcat<T>(a: seq<T>, b: seq<T>, keep: T -> bool)
    ensures Filter(a + b, keep) == Filter(a, keep) + Filter(b, keep)
  {
    if a != [] {
      var head := if keep(a[0]) then [a[0]] else [];
      assert (a + b)[0] == a[0];
      assert (a + b)[1..] == a[1..] + b;
      FilterConcat(a[1..], b, keep);
      assert Filter(a + b, keep) == head + Filter(a[1..] + b, keep);
      assert head + (Filter(a[1..], keep) + Filter(b, keep)) == (head + Filter(a[1..], keep)) + Filter(b, keep);
    } else {
      assert a + b == b;
    }
  }

  /** When the test accepts every element, nothing is dropped. */
  lemma {:induction false} FilterKeepsAll<T>(s: seq<T>, keep: T -> bool)
    requires forall i :: 0 <= i < |s| ==> keep(s[i])
    ensures Filter(s, keep) == s
  {
    if s != [] {
      assert forall i :: 0 <= i < |s[1..]| ==> keep(s[1..][i]);
      FilterKeepsAll(s[1..], keep);
      assert s == [s[0]] + s[1..];
    }
  }

  /**
   * A filter keeps its whole input exactly when the test accepts every
   * element, and keeps nothing exactly when the test accepts none.
   */
  lemma {:induction false} FilterCount<T>(s: seq<T>, keep: T -> bool)
    ensures |Filter(s, keep)| == |s| <==> forall i :: 0 <= i < |s| ==> keep(s[i])
    ensures |Filter(s, keep)| == 0 <==> forall i :: 0 <= i < |s| ==> !keep(s[i])
  {
    if s != [] {
      FilterCount(s[1..], keep);
      assert forall i :: 1 <= i < |s| ==> s[i] == s[1..][i - 1];
      if forall i :: 0 <= i < |s| ==> keep(s[i]) {
        assert forall i :: 0 <= i < |s[1..]| ==> keep(s[1..][i]);
      }
      if forall i :: 0 <= i < |s| ==> !keep(s[i]) {
        assert forall i :: 0 <= i < |s[1..]| ==> !keep(s[1..][i]);
      }
    }
  }

  /**
   * `s.slice(start, end)` for non-negative bounds: the contiguous block from
   * `start` up to `end`, both clamped to the length.
   */
  function Slice<T>(s: seq<T>, start: nat, end: nat): (r: seq<T>)
    ensures |r| == if start < end && start < |s| then (if end < |s| then end else |s|) - start else 0
    ensures forall i :: 0 <= i < |r| ==> r[i] == s[start + i]
  {
    var hi := if end < |s| then end else |s|;
    if start < hi then s[start..hi] else []
  }
}

=== FILE: profile.dfy ===
/**
 * The profile page: a name form that sends only the name to the hook's
 * `updateProfile`, and a password form that checks the confirmation, then the
 * length, and on success clears its three fields. Both handlers clear the
 * error and success texts first.
 */
module Profile {
  import opened Wrappers
  import opened AuthUtils
  import opened AuthActions

  const MinPasswordLength: nat := 6
  const ProfileUpdated := "ข้อมูลโปรไฟล์ถูกอัพเดทเรียบร้อยแล้ว"
  const ProfileUpdateFailed := "เกิดข้อผิดพลาดในการอัพเดทข้อมูล โปรดลองอีกครั้ง"
  const NewMismatchError := "รหัสผ่านใหม่ไม่ตรงกัน กรุณาตรวจสอบอีกครั้ง"
  const NewTooShortError := "รหัสผ่านใหม่ต้องมีความยาวอย่างน้อย 6 ตัวอักษร"
  const PasswordChanged := "รหัสผ่านถูกเปลี่ยนเรียบร้อยแล้ว"

  /** What the name form sends: the name and nothing else. */
  function ProfileRequest(name: string): (data: ProfileData)
    ensures data.name == Some(name) && data.email == None
  {
    ProfileData(Some(name), None)
  }

  /** Saving the name form renames a user and never changes their email, id or role. */
  lemma ProfileRequestKeepsEmail(u: User, name: string)
    ensures Merge(u, ProfileRequest(name)).name == name
    ensures Merge(u, ProfileRequest(name)).email == u.email
    ensures Merge(u, ProfileRequest(name)).id == u.id && Merge(u, ProfileRequest(name)).isAdmin == u.isAdmin
  {
  }

  /** The password form's error, if any: mismatch first, then length. The current password plays no part. */
  function ValidateNewPassword(newPassword: string, confirmPassword: string): (error: Option<string>)
    ensures error.None? <==> newPassword == confirmPassword && |newPassword| >= MinPasswordLength
    ensures newPassword != confirmPassword ==> error == Some(NewMismatchError)
    ensures newPassword == confirmPassword && |newPassword| < MinPasswordLength ==> error == Some(NewTooShortError)
  {
    if newPassword != confirmPassword then Some(NewMismatchError)
    else if |newPassword| < MinPasswordLength then Some(NewTooShortError)
    else None
  }

  class ProfileForm {
    var name: string
    const email: string
    var currentPassword: string
    var newPassword: string
    var confirmPassword: string
    var error: string
    var success: string
    /** The `updateProfile` calls made, oldest first. */
    var updates: seq<ProfileData>

    /** The form starts from the signed-in user's name and email, or empty texts. */
    constructor (user: Option<User>)
      ensures user.Some? ==> name == user.value.name && email == user.value.email
      ensures user.None? ==> name == "" && email == ""
      ensures currentPassword == "" && newPassword == "" && confirmPassword == ""
      ensures error == "" && success == "" && updates == []
    {
      name := if user.Some? then user.value.name else "";
      email := if user.Some? then user.value.email else "";
      currentPassword, newPassword, confirmPassword := "", "", "";
      error, success := "", "";
      updates := [];
    }

    /** `handleProfileUpdate`; `failed` says whether the awaited update threw. */
    method HandleProfileUpdate(failed: bool)
      modifies this
      ensures updates == old(updates) + [ProfileRequest(name)]
      ensures success == (if failed then "" else ProfileUpdated)
      ensures error == (if failed then ProfileUpdateFailed else "")
      ensures name == old(name) && currentPassword == old(currentPassword)
      ensures newPassword == old(newPassword) && confirmPassword == old(confirmPassword)
    {
      error := "";
      success := "";
      updates := updates + [ProfileRequest(name)];
      if failed {
        error := ProfileUpdateFailed;
      } else {
        success := ProfileUpdated;
      }
    }

    /** `handlePasswordUpdate`: a refusal keeps the fields; an acceptance clears all three. */
    method HandlePasswordUpdate()
      modifies this
      ensures ValidateNewPassword(old(newPassword), old(confirmPassword)).Some? ==>
        error == ValidateNewPassword(old(newPassword), old(confirmPassword)).value && success == ""
        && currentPassword == old(currentPassword) && newPassword == old(newPassword)
        && confirmPassword == old(confirmPassword)
      ensures ValidateNewPassword(old(newPassword), old(confirmPassword)).None? ==>
        error == "" && success == PasswordChanged
        && currentPassword == "" && newPassword == "" && confirmPassword == ""
      ensures name == old(name) && updates == old(updates)
    {
      error := "";
      success := "";
      if newPassword != confirmPassword {
        error := NewMismatchError;
        return;
      }
      if |newPassword| < MinPasswordLength {
        error := NewTooShortError;
        return;
      }
      success := PasswordChanged;
      currentPassword := "";
      newPassword := "";
      confirmPassword := "";
    }
  }
}

=== FILE: reset_password.dfy ===
/**
 * The reset-password page's submit handler: the same two checks as sign-up
 * but in the other order (length first, then the confirmation), then a call to
 * the hook's `resetPassword` with the token from the query string.
 */
module ResetPassword {
  import opened Wrappers
  import SignUp

  const MinPasswordLength: nat := 6
  const TooShortError := "รหัสผ่านต้องมีความยาวอย่างน้อย 6 ตัวอักษร"
  const MismatchError := "รหัสผ่านไม่ตรงกัน กรุณาตรวจสอบอีกครั้ง"
  const ResetFailedError := "เกิดข้อผิดพลาดในการรีเซ็ตรหัสผ่าน กรุณาลองใหม่อีกครั้ง"

  /** `searchParams.get("token") || ""`: an absent or empty parameter gives the empty token. */
  function TokenOf(param: Option<string>): (token: string)
    ensures param.None? ==> token == ""
    ensures param.Some? ==> token == param.value
  {
    param.GetOr("")
  }

  /**
   * The error the form shows before calling the hook, if any. The length check
   * comes first, so a short password with a different confirmation gets the
   * length error.
   */
  function Validate(password: string, confirmPassword: string): (error: Option<string>)
    ensures error.None? <==> password == confirmPassword && |password| >= MinPasswordLength
    ensures |password| < MinPasswordLength ==> error == Some(TooShortError)
    ensures |password| >= MinPasswordLength && password != confirmPassword ==> error == Some(MismatchError)
  {
    if |password| < MinPasswordLength then Some(TooShortError)
    else if password != confirmPassword then Some(MismatchError)
    else None
  }

  /**
   * The two pages accept exactly the same pairs and only word their refusals
   * differently: a short pair that also differs is where they disagree.
   */
  lemma SameAcceptanceAsSignUp(password: string, confirmPassword: string)
    ensures Validate(password, confirmPassword).None? <==> SignUp.Validate(password, confirmPassword).None?
    ensures |password| < MinPasswordLength && password != confirmPassword ==>
      Validate(password, confirmPassword) == Some(TooShortError)
      && SignUp.Validate(password, confirmPassword) == Some(SignUp.MismatchError)
  {
  }

  /** The arguments of one `resetPassword(token, password)` call. */
  datatype ResetCall = ResetCall(token: string, password: string)

  class ResetPasswordForm {
    var password: string
    var confirmPassword: string
    var error: string
    const token: string
    var calls: seq<ResetCall>

    constructor (tokenParam: Option<string>)
      ensures token == TokenOf(tokenParam)
      ensures password == "" && confirmPassword == "" && error == "" && calls == []
    {
      token := TokenOf(tokenParam);
      password, confirmPassword := "", "";
      error := "";
      calls := [];
    }

    /**
     * `handleSubmit`. `failed` says whether the awaited call threw; then the
     * generic reset error is shown.
     */
    method HandleSubmit(failed: bool)
      modifies this
      ensures Validate(password, confirmPassword).Some? ==>
        error == Validate(password, confirmPassword).value && calls == old(calls)
      ensures Validate(password, confirmPassword).None? ==>
        calls == old(calls) + [ResetCall(token, password)] && error == if failed then ResetFailedError else ""
      ensures password == old(password) && confirmPassword == old(confirmPassword)
    {
      error := "";
      if |password| < MinPasswordLength {
        error := TooShortError;
        return;
      }
      if password != confirmPassword {
        error := MismatchError;
        return;
      }
      calls := calls + [ResetCall(token, password)];
      if failed {
        error := ResetFailedError;
      }
    }
  }
}

=== FILE: rounding.dfy ===
/** `Math.round((part / whole) * 100)`, the percentage both summary widgets show. */
module Rounding {

  /**
   * The percentage `part / whole`, rounded to the nearest integer with halves
   * going up, as `Math.round` does for non-negative numbers.
   */
  function RoundedPercent(part: nat, whole: nat): (r: nat)
    requires whole > 0
    ensures (2 * r - 1) * whole <= 200 * part < (2 * r + 1) * whole
  {
    var r := (200 * part + whole) / (2 * whole);
    assert r * (2 * whole) <= 200 * part + whole < r * (2 * whole) + 2 * whole;
    r
  }

  lemma ScaleMonotone(a: int, b: int, w: nat)
    requires a <= b
    ensures a * w <= b * w
  {
  }

  /** A share of a whole is a percentage between 0 and 100. */
  lemma RoundedPercentBounds(part: nat, whole: nat)
    requires 0 < whole && part <= whole
    ensures 0 <= RoundedPercent(part, whole) <= 100
    ensures RoundedPercent(part, whole) == 100 <==> 200 * (whole - part) <= whole
    ensures RoundedPercent(part, whole) == 0 <==> 200 * part < whole
  {
    var r := RoundedPercent(part, whole);
    if r > 100 {
      ScaleMonotone(201, 2 * r - 1, whole);
    }
    if r < 100 {
      ScaleMonotone(2 * r + 1, 199, whole);
    }
    if r > 0 {
      ScaleMonotone(1, 2 * r - 1, whole);
    }
  }

  /** All of it is 100 percent, none of it is 0 percent. */
  lemma RoundedPercentExtremes(whole: nat)
    requires whole > 0
    ensures RoundedPercent(whole, whole) == 100
    ensures RoundedPercent(0, whole) == 0
  {
    RoundedPercentBounds(whole, whole);
    RoundedPercentBounds(0, whole);
  }
}

=== FILE: sign_up.dfy ===
/**
 * The sign-up page's submit handler: it clears the error, refuses a
 * confirmation that differs, then a password shorter than six characters, and
 * only then asks the authentication hook to sign up.
 */
module SignUp {
  import opened Wrappers

  const MinPasswordLength: nat := 6
  const MismatchError := "รหัสผ่านไม่ตรงกัน กรุณาตรวจสอบอีกครั้ง"
  const TooShortError := "รหัสผ่านต้องมีความยาวอย่างน้อย 6 ตัวอักษร"

  /**
   * The error the form shows, if any. The mismatch check comes first, so a
   * short password with a different confirmation gets the mismatch error.
   */
  function Validate(password: string, confirmPassword: string): (error: Option<string>)
    ensures error.None? <==> password == confirmPassword && |password| >= MinPasswordLength
    ensures password != confirmPassword ==> error == Some(MismatchError)
    ensures password == confirmPassword && |password| < MinPasswordLength ==> error == Some(TooShortError)
  {
    if password != confirmPassword then Some(MismatchError)
    else if |password| < MinPasswordLength then Some(TooShortError)
    else None
  }

  /** The arguments of one `signUp(email, name, password)` call. */
  datatype SignUpCall = SignUpCall(email: string, name: string, password: string)

  class SignUpForm {
    var email: string
    var name: string
    var password: string
    var confirmPassword: string
    var error: string
    /** The calls made to the hook's `signUp`, oldest first. */
    var calls: seq<SignUpCall>

    constructor ()
      ensures email == "" && name == "" && password == "" && confirmPassword == ""
      ensures error == "" && calls == []
    {
      email, name, password, confirmPassword := "", "", "", "";
      error := "";
      calls := [];
    }

    /** `handleSubmit`: at most one `signUp` call, made exactly when the password passes both checks. */
    method HandleSubmit()
      modifies this
      ensures error == Validate(password, confirmPassword).GetOr("")
      ensures Validate(password, confirmPassword).None? ==> calls == old(calls) + [SignUpCall(email, name, password)]
      ensures Validate(password, confirmPassword).Some? ==> calls == old(calls)
      ensures email == old(email) && name == old(name)
      ensures password == old(password) && confirmPassword == old(confirmPassword)
    {
      error := "";
      if password != confirmPassword {
        error := MismatchError;
        return;
      }
      if |password| < MinPasswordLength {
        error := TooShortError;
        return;
      }
      calls := calls + [SignUpCall(email, name, password)];
    }
  }
}

=== FILE: stats.dfy ===
/**
 * The statistics page's figures over the habit list: the sum of the current
 * streaks, the highest longest streak, the mean completion rate and the two
 * chart series. Every per-habit figure is looked up by the habit's id in the
 * same list, as the page does through the habit context.
 */
module Stats {
  import opened CohesionContext
  import Streaks

  // ---------------------------------------------------------------------
  // The two `reduce` shapes, over the per-habit figures in list order
  // ---------------------------------------------------------------------

  /** `values.reduce((sum, v) => sum + v, 0)`, folded from the left. */
  function Sum(values: seq<nat>): (total: nat)
    ensures values == [] ==> total == 0
    ensures forall i :: 0 <= i < |values| ==> values[i] <= total
  {
    if values == [] then 0 else Sum(values[..|values| - 1]) + values[|values| - 1]
  }

  /** The sum is 0 exactly when every value is. */
  lemma {:induction false} SumZero(values: seq<nat>)
    ensures Sum(values) == 0 <==> forall i :: 0 <= i < |values| ==> values[i] == 0
  {
    if values != [] {
      var init := values[..|values| - 1];
      SumZero(init);
      assert forall i :: 0 <= i < |init| ==> init[i] == values[i];
    }
  }

  /** Values that are each at most `cap` sum to at most `cap` times their number. */
  lemma {:induction false} SumBound(values: seq<nat>, cap: nat)
    requires forall i :: 0 <= i < |values| ==> values[i] <= cap
    ensures Sum(values) <= cap * |values|
  {
    if values != [] {
      var init := values[..|values| - 1];
      assert forall i :: 0 <= i < |init| ==> init[i] == values[i];
      SumBound(init, cap);
      MultiplyStep(cap, |init|);
    }
  }

  /** Equal values sum to that many copies of the value. */
  lemma {:induction false} SumOfEqual(values: seq<nat>, v: nat)
    requires forall i :: 0 <= i < |values| ==> values[i] == v
    ensures Sum(values) == v * |values|
  {
    if values != [] {
      var init := values[..|values| - 1];
      assert forall i :: 0 <= i < |init| ==> init[i] == values[i];
      SumOfEqual(init, v);
      MultiplyStep(v, |init|);
    }
  }

  lemma MultiplyStep(a: nat, n: nat)
    ensures a * n + a == a * (n + 1)
  {
  }

  /** `values.reduce((max, v) => v > max ? v : max, 0)`: at least every value, and 0 or one of them. */
  function Max(values: seq<nat>): (best: nat)
    ensures forall i :: 0 <= i < |values| ==> values[i] <= best
    ensures best == 0 || exists i :: 0 <= i < |values| && best == values[i]
  {
    if values == [] then 0
    else
      var init := values[..|values| - 1];
      var best := Max(init);
      var v := values[|values| - 1];
      assert forall i :: 0 <= i < |init| ==> init[i] == values[i];
      if v > best then v else best
  }

  // ---------------------------------------------------------------------
  // The page's figures
  // ---------------------------------------------------------------------

  function CurrentStreaks(cohesions: seq<Cohesion>, today: int): seq<nat> {
    seq(|cohesions|, i requires 0 <= i < |cohesions| => CurrentStreak(cohesions, cohesions[i].id, today))
  }

  function LongestStreaks(cohesions: seq<Cohesion>): seq<nat> {
    seq(|cohesions|, i requires 0 <= i < |cohesions| => LongestStreak(cohesions, cohesions[i].id))
  }

  function CompletionRates(cohesions: seq<Cohesion>): seq<nat> {
    seq(|cohesions|, i requires 0 <= i < |cohesions| => CompletionRate(cohesions, cohesions[i].id))
  }

  /** `totalStreak`: 0 with no habits, at least every habit's current streak, and 0 only when all of them are. */
  function TotalStreak(cohesions: seq<Cohesion>, today: int): (total: nat)
    ensures cohesions == [] ==> total == 0
    ensures forall i :: 0 <= i < |cohesions| ==> CurrentStreak(cohesions, cohesions[i].id, today) <= total
    ensures total == 0 <==> forall i :: 0 <= i < |cohesions| ==> CurrentStreak(cohesions, cohesions[i].id, today) == 0
  {
    var streaks := CurrentStreaks(cohesions, today);
    assert forall i :: 0 <= i < |cohesions| ==> streaks[i] == CurrentStreak(cohesions, cohesions[i].id, today);
    SumZero(streaks);
    Sum(streaks)
  }

  /**
   * `highestStreak` (and the dashboard's best-streak figure): 0 with no
   * habits, at least every habit's longest streak, and either 0 or the
   * longest streak of one of them.
   */
  function HighestStreak(cohesions: seq<Cohesion>): (best: nat)
    ensures cohesions == [] ==> best == 0
    ensures forall i :: 0 <= i < |cohesions| ==> LongestStreak(cohesions, cohesions[i].id) <= best
    ensures best == 0 || exists i :: 0 <= i < |cohesions| && best == LongestStreak(cohesions, cohesions[i].id)
  {
    var longests := LongestStreaks(cohesions);
    assert forall i :: 0 <= i < |cohesions| ==> longests[i] == LongestStreak(cohesions, cohesions[i].id);
    var best := Max(longests);
    if best == 0 then best
    else
      var k :| 0 <= k < |longests| && best == longests[k];
      assert best == LongestStreak(cohesions, cohesions[k].id);
      best
  }

  /** The mean of `count` copies of `rate`, as the real division computes it. */
  lemma MeanOfCopies(sum: nat, rate: nat, count: nat)
    requires count > 0 && sum == rate * count
    ensures (sum as real) / (count as real) == rate as real
  {
    assert sum as real == (rate as real) * (count as real);
  }

  /** A mean of values that are each at most 100 is at most 100. */
  lemma MeanBound(total: real, n: real)
    requires n > 0.0 && 0.0 <= total <= 100.0 * n
    ensures 0.0 <= total / n <= 100.0
  {
  }

  /** `averageCompletion`: 0 with no habits, otherwise the mean rate, so between 0 and 100. */
  function AverageCompletion(cohesions: seq<Cohesion>): (avg: real)
    ensures cohesions == [] ==> avg == 0.0
    ensures 0.0 <= avg <= 100.0
  {
    if |cohesions| > 0 then
      var rates := CompletionRates(cohesions);
      SumBound(rates, 100);
      var n := |cohesions| as real;
      var total := Sum(rates) as real;
      MeanBound(total, n);
      total / n
    else 0.0
  }

  /** The mean of equal rates is that rate. */
  lemma AverageOfEqualRates(cohesions: seq<Cohesion>, rate: nat)
    requires |cohesions| > 0
    requires forall i :: 0 <= i < |cohesions| ==> CompletionRate(cohesions, cohesions[i].id) == rate
    ensures AverageCompletion(cohesions) == rate as real
  {
    var rates := CompletionRates(cohesions);
    var sum := Sum(rates);
    assert AverageCompletion(cohesions) == (sum as real) / (|cohesions| as real);
    SumOfEqual(rates, rate);
    MeanOfCopies(sum, rate, |cohesions|);
  }

  /** One bar of the streak chart. */
  datatype StreakPoint = StreakPoint(name: string, streak: nat, longest: nat)

  /** One slice of the completion chart. */
  datatype CompletionPoint = CompletionPoint(name: string, value: nat)

  /** `streakData`: one point per habit, in list order. */
  function StreakData(cohesions: seq<Cohesion>, today: int): (data: seq<StreakPoint>)
    ensures |data| == |cohesions|
    ensures forall i :: 0 <= i < |data| ==> data[i].name == cohesions[i].name
    ensures forall i :: 0 <= i < |data| ==>
      data[i].streak <= TotalStreak(cohesions, today) && data[i].longest <= HighestStreak(cohesions)
  {
    seq(|cohesions|, i requires 0 <= i < |cohesions| =>
      StreakPoint(cohesions[i].name, CurrentStreak(cohesions, cohesions[i].id, today), LongestStreak(cohesions, cohesions[i].id)))
  }

  /** `completionData`: one point per habit, in list order, each a percentage. */
  function CompletionData(cohesions: seq<Cohesion>): (data: seq<CompletionPoint>)
    ensures |data| == |cohesions|
    ensures forall i :: 0 <= i < |data| ==> data[i].name == cohesions[i].name && data[i].value <= 100
  {
    seq(|cohesions|, i requires 0 <= i < |cohesions| =>
      CompletionPoint(cohesions[i].name, CompletionRate(cohesions, cohesions[i].id)))
  }

  /** When no log repeats a date, every bar's current streak is at most its longest streak. */
  lemma StreakBarsOrdered(cohesions: seq<Cohesion>, today: int)
    requires AllLogsDistinct(cohesions)
    ensures forall i :: 0 <= i < |cohesions| ==> StreakData(cohesions, today)[i].streak <= StreakData(cohesions, today)[i].longest
  {
    forall i | 0 <= i < |cohesions|
      ensures CurrentStreak(cohesions, cohesions[i].id, today) <= LongestStreak(cohesions, cohesions[i].id)
    {
      var found := FindById(cohesions, cohesions[i].id);
      var k :| 0 <= k < |cohesions| && cohesions[k] == found.value;
      CompletedDatesDistinct(found.value.days);
      CurrentAtMostLongest(CompletedDates(found.value.days), today);
    }
  }
}

=== FILE: streaks.dfy ===
/**
 * The run arithmetic behind the habit streaks, on calendar days written as
 * integer day numbers (one more is the next day). The habit context filters
 * a log down to its completed dates, sorts them with `Array.prototype.sort`
 * and walks the sorted list; this module holds the sort and the two walks as
 * functions, and the facts about runs of consecutive days that they compute.
 */
module Streaks {

  predicate Ascending(s: seq<int>) {
    forall i, j :: 0 <= i < j < |s| ==> s[i] <= s[j]
  }

  predicate Descending(s: seq<int>) {
    forall i, j :: 0 <= i < j < |s| ==> s[i] >= s[j]
  }

  predicate Distinct(s: seq<int>) {
    forall i, j :: 0 <= i < j < |s| ==> s[i] != s[j]
  }

  /** Every day from `lo` up to but not including `hi` is in `s`. */
  predicate Covers(s: seq<int>, lo: int, hi: int) {
    forall d :: lo <= d < hi ==> d in s
  }

  // ---------------------------------------------------------------------
  // Sorting (the numeric comparator `a - b`, or `b - a` for newest first)
  // ---------------------------------------------------------------------

  function Insert(x: int, s: seq<int>): (r: seq<int>)
    ensures |r| == |s| + 1
    ensures r[0] == if s == [] || x <= s[0] then x else s[0]
    ensures multiset(r) == multiset(s) + multiset{x}
  {
    if s == [] then [x]
    else if x <= s[0] then [x] + s
    else
      assert s == [s[0]] + s[1..];
      [s[0]] + Insert(x, s[1..])
  }

  /** Inserting into an ascending list keeps it ascending. */
  lemma {:induction false} InsertAscending(x: int, s: seq<int>)
    requires Ascending(s)
    ensures Ascending(Insert(x, s))
  {
    if s != [] && x > s[0] {
      InsertAscending(x, s[1..]);
      var rest := Insert(x, s[1..]);
      assert rest[0] >= s[0];
      assert Insert(x, s) == [s[0]] + rest;
    }
  }

  /** The dates in increasing order; the same dates, as a multiset. */
  function SortAscending(s: seq<int>): (r: seq<int>)
    ensures Ascending(r)
    ensures multiset(r) == multiset(s)
  {
    if s == [] then []
    else
      assert s == [s[0]] + s[1..];
      var rest := SortAscending(s[1..]);
      InsertAscending(s[0], rest);
      Insert(s[0], rest)
  }

  function Reverse(s: seq<int>): (r: seq<int>)
    ensures |r| == |s|
    ensures forall i :: 0 <= i < |s| ==> r[i] == s[|s| - 1 - i]
    ensures multiset(r) == multiset(s)
  {
    if s == [] then []
    else
      assert s == [s[0]] + s[1..];
      Reverse(s[1..]) + [s[0]]
  }

  /** The dates newest first; the same dates, as a multiset. */
  function SortDescending(s: seq<int>): (r: seq<int>)
    ensures Descending(r)
    ensures multiset(r) == multiset(s)
  {
    Reverse(SortAscending(s))
  }

  /** A list without repeats has every element once. */
  lemma {:induction false} DistinctCountsOne(s: seq<int>)
    requires Distinct(s)
    ensures forall x :: multiset(s)[x] <= 1
  {
    if s != [] {
      assert s == [s[0]] + s[1..];
      DistinctCountsOne(s[1..]);
      assert s[0] !in s[1..];
    }
  }

  /** Two equal entries at different places make a multiplicity of at least two. */
  lemma RepeatCountsTwice(s: seq<int>, i: nat, j: nat)
    requires i < j < |s|
    ensures s[i] == s[j] ==> multiset(s)[s[i]] >= 2
  {
    if s[i] == s[j] {
      assert s == s[..j] + s[j..];
      assert s[i] in s[..j];
      assert s[j] in s[j..];
      assert multiset(s)[s[i]] == multiset(s[..j])[s[i]] + multiset(s[j..])[s[i]];
    }
  }

  /** A list whose elements are each there once has no repeats. */
  lemma CountsOneDistinct(s: seq<int>)
    requires forall x :: multiset(s)[x] <= 1
    ensures Distinct(s)
  {
    forall i, j | 0 <= i < j < |s|
      ensures s[i] != s[j]
    {
      RepeatCountsTwice(s, i, j);
    }
  }

  /** Sorting dates that are distinct keeps them distinct. */
  lemma SortKeepsDistinct(s: seq<int>)
    requires Distinct(s)
    ensures Distinct(SortAscending(s))
    ensures Distinct(SortDescending(s))
  {
    DistinctCountsOne(s);
    CountsOneDistinct(SortAscending(s));
    CountsOneDistinct(SortDescending(s));
  }

  /** Both sorted orders hold exactly the original dates. */
  lemma SortSameMembers(s: seq<int>, d: int)
    ensures d in SortAscending(s) <==> d in s
    ensures d in SortDescending(s) <==> d in s
  {
    assert d in s <==> d in multiset(s);
    assert d in SortAscending(s) <==> d in multiset(SortAscending(s));
    assert d in SortDescending(s) <==> d in multiset(SortDescending(s));
  }

  // ---------------------------------------------------------------------
  // The current-streak walk: newest first, one-day steps from the head
  // ---------------------------------------------------------------------

  /**
   * How many entries the current-streak walk counts from index `i` on: the
   * entry at `i` itself and one more for every step of exactly one day, up to
   * the first step that is not.
   */
  function RunFrom(s: seq<int>, i: nat): (n: nat)
    requires i < |s|
    ensures 1 <= n <= |s| - i
    decreases |s| - i
  {
    if i + 1 == |s| || s[i] - s[i + 1] != 1 then 1 else 1 + RunFrom(s, i + 1)
  }

  /** The walk counts a block of consecutive days ending at `s[i]` and stops at a step that is not one day. */
  lemma {:induction false} RunFromSteps(s: seq<int>, i: nat)
    requires i < |s|
    ensures forall k :: i <= k < i + RunFrom(s, i) ==> s[k] == s[i] - (k - i)
    ensures i + RunFrom(s, i) < |s| ==> s[i + RunFrom(s, i) - 1] - s[i + RunFrom(s, i)] != 1
    decreases |s| - i
  {
    if i + 1 < |s| && s[i] - s[i + 1] == 1 {
      RunFromSteps(s, i + 1);
    }
  }

  /**
   * On distinct dates, newest first, the walk from the head counts exactly the
   * days `s[0] - n + 1 .. s[0]`, all present, and the day before them is absent:
   * it is the length of the block of consecutive days ending at the newest one.
   */
  lemma HeadRunIsMaximal(s: seq<int>)
    requires |s| > 0 && Descending(s) && Distinct(s)
    ensures Covers(s, s[0] - RunFrom(s, 0) + 1, s[0] + 1)
    ensures s[0] - RunFrom(s, 0) !in s
  {
    var n := RunFrom(s, 0);
    RunFromSteps(s, 0);
    forall d | s[0] - n + 1 <= d < s[0] + 1
      ensures d in s
    {
      assert s[s[0] - d] == d;
    }
    forall j | 0 <= j < |s|
      ensures s[j] != s[0] - n
    {
      if j < n {
        assert s[j] == s[0] - j;
      } else {
        assert s[n - 1] == s[0] - (n - 1);
        assert s[n - 1] > s[n] >= s[j];
      }
    }
  }

  // ---------------------------------------------------------------------
  // The longest-streak pass: oldest first, one step at a time
  // ---------------------------------------------------------------------

  /**
   * The pass's `currentStreak` after it has looked at index `i`: a one-day step
   * extends the run, a longer step starts a new one, a zero-day step (a repeated
   * date) leaves it as it is.
   */
  function RunEndingAt(s: seq<int>, i: nat): (n: nat)
    requires i < |s|
    ensures 1 <= n <= i + 1
  {
    if i == 0 then 1
    else if s[i] - s[i - 1] == 1 then RunEndingAt(s, i - 1) + 1
    else if s[i] - s[i - 1] > 1 then 1
    else RunEndingAt(s, i - 1)
  }

  /** The pass's `longestStreak` after it has looked at index `i`: updated only on a one-day step. */
  function BestRunUpTo(s: seq<int>, i: nat): (n: nat)
    requires i < |s|
    ensures RunEndingAt(s, i) <= n <= i + 1
  {
    if i == 0 then 1
    else if s[i] - s[i - 1] == 1 then
      var best := BestRunUpTo(s, i - 1);
      var run := RunEndingAt(s, i);
      if best < run then run else best
    else BestRunUpTo(s, i - 1)
  }

  /** The longest-streak figure of an ascending date list: 0 for none. */
  function LongestRun(s: seq<int>): (n: nat)
    ensures n <= |s|
    ensures n == 0 <==> |s| == 0
  {
    if |s| == 0 then 0 else BestRunUpTo(s, |s| - 1)
  }

  /** The best figure never drops below a run seen earlier. */
  lemma {:induction false} BestDominates(s: seq<int>, j: nat, i: nat)
    requires j <= i < |s|
    ensures RunEndingAt(s, j) <= BestRunUpTo(s, i)
  {
    if j < i {
      BestDominates(s, j, i - 1);
    }
  }

  /** The best figure is a run that was actually seen at some index. */
  lemma {:induction false} BestIsSomeRun(s: seq<int>, i: nat)
    requires i < |s|
    ensures exists j :: 0 <= j <= i && BestRunUpTo(s, i) == RunEndingAt(s, j)
  {
    if i == 0 {
      assert BestRunUpTo(s, 0) == RunEndingAt(s, 0);
    } else {
      BestIsSomeRun(s, i - 1);
      if s[i] - s[i - 1] == 1 && BestRunUpTo(s, i - 1) < RunEndingAt(s, i) {
        assert BestRunUpTo(s, i) == RunEndingAt(s, i);
      }
    }
  }

  /** On ascending dates the run counted at index `i` is a block of consecutive days ending at `s[i]`. */
  lemma {:induction false} RunEndingAtCovers(s: seq<int>, i: nat)
    requires i < |s| && Ascending(s)
    ensures Covers(s, s[i] - RunEndingAt(s, i) + 1, s[i] + 1)
  {
    if i > 0 {
      RunEndingAtCovers(s, i - 1);
      assert s[i - 1] in s && s[i] in s;
    }
  }

  /**
   * On distinct ascending dates, the run counted at an index is at least as
   * long as any block of consecutive days that ends at that index's date.
   */
  lemma {:induction false} RunEndingAtIsLongest(s: seq<int>, j: nat, m: nat)
    requires j < |s| && Ascending(s) && Distinct(s)
    requires m >= 1 && Covers(s, s[j] - m + 1, s[j] + 1)
    ensures RunEndingAt(s, j) >= m
    decreases m
  {
    if m > 1 {
      assert s[j] - 1 in s;
      var k :| 0 <= k < |s| && s[k] == s[j] - 1;
      assert k < j;
      assert s[k] <= s[j - 1] < s[j];
      RunEndingAtIsLongest(s, j - 1, m - 1);
    }
  }

  /**
   * On distinct ascending dates the longest-streak figure is exactly the
   * length of the longest block of consecutive days: some block has that
   * length, and no block is longer.
   */
  lemma LongestRunIsMaximal(s: seq<int>, lo: int, hi: int)
    requires |s| > 0 && Ascending(s) && Distinct(s)
    requires lo < hi && Covers(s, lo, hi)
    ensures hi - lo <= LongestRun(s)
    ensures exists i :: 0 <= i < |s| && Covers(s, s[i] - LongestRun(s) + 1, s[i] + 1)
  {
    assert hi - 1 in s;
    var j :| 0 <= j < |s| && s[j] == hi - 1;
    RunEndingAtIsLongest(s, j, hi - lo);
    BestDominates(s, j, |s| - 1);
    BestIsSomeRun(s, |s| - 1);
    var k :| 0 <= k <= |s| - 1 && BestRunUpTo(s, |s| - 1) == RunEndingAt(s, k);
    RunEndingAtCovers(s, k);
  }
}

=== FILE: tasks_context.dfy ===
/**
 * The to-do list store: a list of tasks that `addTask`, `updateTask`,
 * `deleteTask` and `toggleComplete` replace, each by one map or filter over
 * the previous list.
 */
module TasksContext {
  import opened Wrappers
  import opened Lists

  datatype Priority = Low | Medium | High

  datatype Task = Task(
    id: string,
    title: string,
    description: Option<string>,
    completed: bool,
    priority: Priority,
    dueDate: Option<string>,
    createdAt: string)

  /** What `addTask` is given: every field except id, createdAt and completed. */
  datatype TaskDraft = TaskDraft(title: string, description: Option<string>, priority: Priority, dueDate: Option<string>)

  /**
   * A `Partial<TaskType>`: `Some` for each key present in the update. For the
   * optional fields a present key may carry `undefined` (`Some(None)`), which
   * the spread copies over the old value.
   */
  datatype TaskPatch = TaskPatch(
    id: Option<string>,
    title: Option<string>,
    description: Option<Option<string>>,
    completed: Option<bool>,
    priority: Option<Priority>,
    dueDate: Option<Option<string>>,
    createdAt: Option<string>)

  /** What `addTask` builds: the draft's fields, not completed, with the given id and time. */
  function NewTask(draft: TaskDraft, id: string, createdAt: string): (t: Task)
    ensures !t.completed
    ensures t.title == draft.title && t.description == draft.description
    ensures t.priority == draft.priority && t.dueDate == draft.dueDate
    ensures t.id == id && t.createdAt == createdAt
  {
    Task(id, draft.title, draft.description, false, draft.priority, draft.dueDate, createdAt)
  }

  /**
   * `r` is `t` with every key the patch carries overwritten by the patch's
   * value (for the optional fields, possibly by `undefined`) and every other
   * field kept.
   */
  predicate Overrides(t: Task, patch: TaskPatch, r: Task) {
    (patch.id.Some? ==> r.id == patch.id.value) && (patch.id.None? ==> r.id == t.id) &&
    (patch.title.Some? ==> r.title == patch.title.value) && (patch.title.None? ==> r.title == t.title) &&
    (patch.description.Some? ==> r.description == patch.description.value) && (patch.description.None? ==> r.description == t.description) &&
    (patch.completed.Some? ==> r.completed == patch.completed.value) && (patch.completed.None? ==> r.completed == t.completed) &&
    (patch.priority.Some? ==> r.priority == patch.priority.value) && (patch.priority.None? ==> r.priority == t.priority) &&
    (patch.dueDate.Some? ==> r.dueDate == patch.dueDate.value) && (patch.dueDate.None? ==> r.dueDate == t.dueDate) &&
    (patch.createdAt.Some? ==> r.createdAt == patch.createdAt.value) && (patch.createdAt.None? ==> r.createdAt == t.createdAt)
  }

  /** `{ ...t, ...patch }`. */
  function ApplyPatch(t: Task, patch: TaskPatch): (r: Task)
    ensures Overrides(t, patch, r)
  {
    Task(
      patch.id.GetOr(t.id),
      patch.title.GetOr(t.title),
      patch.description.GetOr(t.description),
      patch.completed.GetOr(t.completed),
      patch.priority.GetOr(t.priority),
      patch.dueDate.GetOr(t.dueDate),
      patch.createdAt.GetOr(t.createdAt))
  }

  /** The list after `updateTask(id, patch)`. */
  function UpdateIn(tasks: seq<Task>, id: string, patch: TaskPatch): (r: seq<Task>)
    ensures |r| == |tasks|
  {
    seq(|tasks|, i requires 0 <= i < |tasks| =>
      if tasks[i].id == id then ApplyPatch(tasks[i], patch) else tasks[i])
  }

  /**
   * An update overwrites the fields the patch carries on matching tasks only;
   * every field the patch leaves out keeps its value; with no match the list
   * is unchanged.
   */
  lemma UpdateOnlyMatching(tasks: seq<Task>, id: string, patch: TaskPatch)
    ensures forall i :: 0 <= i < |tasks| && tasks[i].id != id ==> UpdateIn(tasks, id, patch)[i] == tasks[i]
    ensures forall i :: 0 <= i < |tasks| && tasks[i].id == id ==>
      Overrides(tasks[i], patch, UpdateIn(tasks, id, patch)[i])
    ensures (forall i :: 0 <= i < |tasks| ==> tasks[i].id != id) ==> UpdateIn(tasks, id, patch) == tasks
  {
  }

  /** The test `t => t.id !== id`. */
  function OtherId(id: string): Task -> bool {
    (t: Task) => t.id != id
  }

  /** The list after `deleteTask(id)`. */
  function RemoveById(tasks: seq<Task>, id: string): (r: seq<Task>)
    ensures |r| <= |tasks|
    ensures forall i :: 0 <= i < |r| ==> r[i].id != id
  {
    var r := Filter(tasks, OtherId(id));
    assert forall i :: 0 <= i < |r| ==> OtherId(id)(r[i]);
    r
  }

  /**
   * Deleting removes every task with the id, keeps the others in their
   * order, never grows the list, and changes nothing when no task has the id.
   */
  lemma RemoveByIdSpec(tasks: seq<Task>, id: string)
    ensures |RemoveById(tasks, id)| <= |tasks|
    ensures forall t :: t in RemoveById(tasks, id) <==> t in tasks && t.id != id
    ensures forall a, b :: tasks == a + b ==> RemoveById(tasks, id) == RemoveById(a, id) + RemoveById(b, id)
    ensures (forall i :: 0 <= i < |tasks| ==> tasks[i].id != id) ==> RemoveById(tasks, id) == tasks
  {
    forall t {
      FilterMembers(tasks, OtherId(id), t);
    }
    forall a, b | tasks == a + b {
      FilterConcat(a, b, OtherId(id));
    }
    if forall i :: 0 <= i < |tasks| ==> tasks[i].id != id {
      FilterKeepsAll(tasks, OtherId(id));
    }
  }

  /** The list after `toggleComplete(id)`. */
  function Toggled(tasks: seq<Task>, id: string): (r: seq<Task>)
    ensures |r| == |tasks|
  {
    seq(|tasks|, i requires 0 <= i < |tasks| =>
      if tasks[i].id == id then tasks[i].(completed := !tasks[i].completed) else tasks[i])
  }

  /**
   * Toggling flips `completed` exactly on every task with the id and changes
   * no other field of any task.
   */
  lemma ToggleFlipsOnlyMatching(tasks: seq<Task>, id: string)
    ensures forall i :: 0 <= i < |tasks| ==>
      Toggled(tasks, id)[i].completed == (tasks[i].completed != (tasks[i].id == id))
    ensures forall i :: 0 <= i < |tasks| ==>
      Toggled(tasks, id)[i] == tasks[i].(completed := Toggled(tasks, id)[i].completed)
  {
  }

  /** Two toggles of the same id restore the original list. */
  lemma ToggleTwiceRestores(tasks: seq<Task>, id: string)
    ensures Toggled(Toggled(tasks, id), id) == tasks
  {
    var r := Toggled(Toggled(tasks, id), id);
    assert forall i :: 0 <= i < |tasks| ==> r[i] == tasks[i];
  }

  /** The provider's `tasks` state and the operations that replace it. */
  class TaskStore {
    var tasks: seq<Task>

    /** The store holding the list loaded at start-up. */
    constructor (loaded: seq<Task>)
      ensures tasks == loaded
    {
      tasks := loaded;
    }

    /** Appends one new, not completed task; earlier tasks are unchanged. */
    method AddTask(draft: TaskDraft, id: string, createdAt: string)
      modifies this
      ensures tasks == old(tasks) + [NewTask(draft, id, createdAt)]
      ensures |tasks| == |old(tasks)| + 1 && !tasks[|tasks| - 1].completed
    {
      tasks := tasks + [NewTask(draft, id, createdAt)];
    }

    method UpdateTask(id: string, patch: TaskPatch)
      modifies this
      ensures tasks == UpdateIn(old(tasks), id, patch)
      ensures |tasks| == |old(tasks)|
    {
      tasks := UpdateIn(tasks, id, patch);
    }

    method DeleteTask(id: string)
      modifies this
      ensures tasks == RemoveById(old(tasks), id)
      ensures |tasks| <= |old(tasks)|
    {
      RemoveByIdSpec(tasks, id);
      tasks := RemoveById(tasks, id);
    }

    method ToggleComplete(id: string)
      modifies this
      ensures tasks == Toggled(old(tasks), id)
      ensures |tasks| == |old(tasks)|
    {
      tasks := Toggled(tasks, id);
    }
  }
}

=== FILE: text.dfy ===
/**
 * String helpers shared by the search boxes, the sign-in name rule, the chat
 * keyword matcher and the decimal ids: `toLowerCase`, `includes`, `trim() == ""`,
 * `split(c)[0]` and `String(n)` on non-negative integers.
 */
module Text {

  /** `toLowerCase` on one character. Only the ASCII letters A-Z have a lower-case form here. */
  function LowerChar(c: char): (r: char)
    ensures 'A' <= c <= 'Z' ==> 'a' <= r <= 'z' && r as int - c as int == 32
    ensures !('A' <= c <= 'Z') ==> r == c
  {
    if 'A' <= c <= 'Z' then (c as int + 32) as char else c
  }

  /** `s.toLowerCase()`, character by character. */
  function Lower(s: string): (r: string)
    ensures |r| == |s|
    ensures forall i :: 0 <= i < |s| ==> r[i] == LowerChar(s[i])
  {
    seq(|s|, i requires 0 <= i < |s| => LowerChar(s[i]))
  }

  predicate StartsWith(s: string, prefix: string) {
    |prefix| <= |s| && s[..|prefix|] == prefix
  }

  /** `s.includes(t)`: `t` occurs in `s` at some position. */
  predicate Contains(s: string, t: string)
    decreases |s|
  {
    StartsWith(s, t) || (|s| > 0 && Contains(s[1..], t))
  }

  /** `t` sits in `s` starting at index `i`. */
  predicate OccursAt(s: string, t: string, i: int) {
    0 <= i && i + |t| <= |s| && s[i..i + |t|] == t
  }

  /** `includes` is a search for a contiguous occurrence. */
  lemma {:induction false} ContainsIsOccurrence(s: string, t: string)
    ensures Contains(s, t) <==> exists i :: OccursAt(s, t, i)
  {
    if StartsWith(s, t) {
      assert OccursAt(s, t, 0);
    }
    if |s| > 0 {
      ContainsIsOccurrence(s[1..], t);
      if Contains(s[1..], t) {
        var i :| OccursAt(s[1..], t, i);
        assert s[1..][i..i + |t|] == s[i + 1..i + 1 + |t|];
        assert OccursAt(s, t, i + 1);
      }
      if exists i :: OccursAt(s, t, i) {
        var i :| OccursAt(s, t, i);
        if i > 0 {
          assert s[1..][i - 1..i - 1 + |t|] == s[i..i + |t|];
          assert OccursAt(s[1..], t, i - 1);
        }
      }
    }
  }

  /** Every string includes the empty string, so an empty search term matches everything. */
  lemma ContainsEmpty(s: string)
    ensures Contains(s, "")
  {
  }

  /**
   * The characters `String.prototype.trim` removes: ECMAScript white space
   * (tab, vertical tab, form feed, space, no-break space, byte order mark and
   * the Unicode space separators) and the line terminators.
   */
  predicate IsSpace(c: char) {
    c == '\t' || c == '\U{B}' || c == '\U{C}' || c == ' ' || c == '\U{A0}' || c == '\U{FEFF}'
    || c == '\U{1680}' || ('\U{2000}' <= c <= '\U{200A}') || c == '\U{202F}' || c == '\U{205F}'
    || c == '\U{3000}' || c == '\n' || c == '\r' || c == '\U{2028}' || c == '\U{2029}'
  }

  /**
   * `s` without its leading white space. The source calls `trim()` only to
   * test for emptiness and keeps the untrimmed text, and a string trims to
   * nothing from both ends exactly when it does from the front, so the
   * front alone decides that test.
   */
  function TrimStart(s: string): (r: string)
    ensures r == [] || !IsSpace(r[0])
    ensures |r| <= |s|
  {
    if s != [] && IsSpace(s[0]) then TrimStart(s[1..]) else s
  }

  /** `s.trim() === ""`: nothing but white space, so trimming leaves nothing. */
  function IsBlank(s: string): (ok: bool)
    ensures ok <==> TrimStart(s) == []
  {
    BlankTrimsAway(s);
    forall i :: 0 <= i < |s| ==> IsSpace(s[i])
  }

  /** A string is all white space exactly when trimming its leading white space empties it. */
  lemma {:induction false} BlankTrimsAway(s: string)
    ensures (forall i :: 0 <= i < |s| ==> IsSpace(s[i])) <==> TrimStart(s) == []
  {
    if s != [] {
      BlankTrimsAway(s[1..]);
      assert forall i :: 1 <= i < |s| ==> s[i] == s[1..][i - 1];
    }
  }

  /** `s.split(c)[0]`: the text before the first `c`, or all of `s` when it has none. */
  function BeforeFirst(s: string, c: char): (r: string)
    ensures c !in r
    ensures r <= s
    ensures |r| < |s| ==> s[|r|] == c
  {
    if s == [] then []
    else if s[0] == c then []
    else [s[0]] + BeforeFirst(s[1..], c)
  }

  function DigitChar(d: nat): (c: char)
    requires d < 10
    ensures '0' <= c <= '9'
  {
    ('0' as int + d) as char
  }

  /** `String(n)` for a non-negative integer: its decimal digits, most significant first. */
  function Decimal(n: nat): (r: string)
    ensures |r| > 0
    ensures forall i :: 0 <= i < |r| ==> '0' <= r[i] <= '9'
    ensures |r| == 1 || r[0] != '0'
  {
    if n < 10 then [DigitChar(n)] else Decimal(n / 10) + [DigitChar(n % 10)]
  }

  /** The number a string of decimal digits denotes. */
  function DigitsValue(s: string): nat
    requires forall i :: 0 <= i < |s| ==> '0' <= s[i] <= '9'
  {
    if s == [] then 0 else 10 * DigitsValue(s[..|s| - 1]) + (s[|s| - 1] as int - '0' as int)
  }

  /** Reading back the decimal text of `n` gives `n`: the decimal ids are distinct for distinct numbers. */
  lemma {:induction false} DecimalRoundTrip(n: nat)
    ensures DigitsValue(Decimal(n)) == n
  {
    if n >= 10 {
      DecimalRoundTrip(n / 10);
      var r := Decimal(n);
      assert r[..|r| - 1] == Decimal(n / 10);
    }
  }

  /** A non-empty digit string is worth at least its leading digit. */
  lemma {:induction false} LeadingDigitBound(s: string)
    requires s != [] && forall i :: 0 <= i < |s| ==> '0' <= s[i] <= '9'
    ensures DigitsValue(s) >= s[0] as int - '0' as int
  {
    if |s| > 1 {
      LeadingDigitBound(s[..|s| - 1]);
    }
  }

  /**
   * `String(n)` is the only decimal text of `n` without a leading zero: any
   * digit string that denotes `n` and does not start with '0' (unless it is
   * the single digit) is exactly `Decimal(n)`.
   */
  lemma {:induction false} DecimalCanonical(s: string, n: nat)
    requires s != [] && forall i :: 0 <= i < |s| ==> '0' <= s[i] <= '9'
    requires |s| == 1 || s[0] != '0'
    requires DigitsValue(s) == n
    ensures s == Decimal(n)
  {
    if |s| > 1 {
      var front := s[..|s| - 1];
      assert front[0] == s[0];
      LeadingDigitBound(front);
      var d := s[|s| - 1] as int - '0' as int;
      assert n == 10 * DigitsValue(front) + d;
      assert n / 10 == DigitsValue(front) && n % 10 == d;
      DecimalCanonical(front, n / 10);
      assert s == front + [s[|s| - 1]];
    }
  }

  lemma DecimalInjective(m: nat, n: nat)
    requires Decimal(m) == Decimal(n)
    ensures m == n
  {
    DecimalRoundTrip(m);
    DecimalRoundTrip(n);
  }
}

=== FILE: wrappers.dfy ===
/** An optional value: the model's stand-in for `undefined`, `null` and optional fields. */
module Wrappers {

  datatype Option<+T> = None | Some(value: T) {

    /** The wrapped value, or `default` when there is none (the `x || default` idiom). */
    function GetOr(default: T): T {
      match this
      case Some(v) => v
      case None => default
    }
  }
}
